=== FILE: README.md ===
# Training-video metadata generator, modelled in Dafny

The tool scans a blob container of training videos. For each video it writes a JSON metadata record under `metadata/`. This project models the tool's deterministic core (`MetadataGenerator` in `metadata.py`):

- **Inventory scan.** It keeps the keys outside `metadata/` whose suffix, lower-cased, is one of seven video extensions.
- **Key classifier.** It tries three rules in order: a category folder, a `<category>-` prefix on the stem, then keyword detection. The result is a difficulty tier and a clean name.
- **Title cleaner.** It turns a clean name into a display title.
- **Record generators.** These produce the duration estimate, the topic and tag sets, and the objectives, prerequisites and chapter tables. The record assembly merges the caller's override fields last.
- **Batch run.** It reads the set of existing record stems once, then skips or writes each video, and counts the outcomes.
- **Single-video run.** It looks up one video by key or file name and writes its record.

The storage service is replaced by plain data:

- a container listing is `Listed(blobs)`, or `FailedAfter(delivered)` when the listing raised an error part-way;
- each upload's success is given in advance as a `seq<bool>`;
- a record is a `map<string, Json>`.

Files and modules:

| file | module | models |
|---|---|---|
| `wrappers.dfy` | `Wrappers` | `Option` |
| `fields.dfy` | `RecordFields` | the seventeen fields of a record and their JSON keys |
| `text.dfy` | `Text` | ASCII case mapping, `in` on strings, `str.split()`, `' '.join`, `str.capitalize()` |
| `paths.dfy` | `Paths` | `PurePath.name`, `.suffix` and `.stem` on `/`-separated keys |
| `classifier.dfy` | `Classifier` | `parse_video_info`, `detect_category_from_filename` |
| `inventory.dfy` | `Inventory` | `list_existing_videos` |
| `title.dfy` | `Title` | `clean_filename_for_title` |
| `synthesis.dfy` | `Synthesis` | `estimate_duration`, topics, tags, objectives, prerequisites, chapters, `create_metadata` |
| `batch.dfy` | `Batch` | `generate_all_metadata`, `generate_metadata_for_video`, the record path of `upload_metadata` |

Keyword precedence follows the code: beginner keywords are checked first, then advanced, then intermediate (metadata.py:88-95). So a stem holding both `intro` and `master` is a beginner video, as `Classifier.DetectBeginnerBeforeAdvanced` states.

## Model

| member | source | states |
|---|---|---|
| Text.ToLower | metadata.py:86 | `str.lower()` keeps the length and maps every character through the ASCII lower-case map |
| Text.Words | metadata.py:143 | `str.split()` yields non-empty whitespace-free words, each built from characters of the input |
| Text.JoinShape | metadata.py:143 | `' '.join` of words is single-spaced, has no whitespace at either end, is empty only for no words, and uses only spaces and the words' characters |
| Text.WordsOfJoin | metadata.py:143 | splitting a `' '.join` of whitespace-free words gives back exactly those words |
| Text.JoinOfWords | metadata.py:143 | the other direction: joining the words of a single-spaced text with single spaces gives the text back |
| Text.WordsOfWord | metadata.py:143 | a word followed by nothing or by whitespace splits off as the first word of `str.split()` |
| Text.WordsAfterWord | metadata.py:143 | a word and a space split off the word, whatever follows |
| Text.WordsAfterWhitespace | metadata.py:143 | a leading whitespace character changes nothing in `str.split()`, whichever of the whitespace characters it is |
| Text.Capitalize | metadata.py:143 | `str.capitalize()` keeps the length, upper-cases the first character and lower-cases every later one |
| Paths.FileName | metadata.py:39-46 | the name of a key is a '/'-free tail of the key, the whole key when it has no '/' |
| Paths.FileNameIsLastSegment | metadata.py:39-46 | the name is the whole last segment: either the key has no '/' or a '/' stands right before the name |
| Paths.FileNameKeepsTail | metadata.py:39-40 | a '/'-free ending of the key is also an ending of its name |
| Paths.FirstSegment | metadata.py:68-69 | `split('/')[0]` is a '/'-free prefix of the key, followed by '/' when the key has one |
| Paths.Suffix | metadata.py:40 | the suffix is empty exactly when the name has no suffix; otherwise it is a '.' and at least one more character, with no further '.', and ends the name |
| Paths.Stem | metadata.py:63-64 | the stem is a prefix of the name, empty only for the empty name |
| Paths.StemSuffixSplit | metadata.py:63-64 | stem followed by suffix is the name again |
| Paths.StemBeforeExtension | metadata.py:39-40 | for `n.ext`, with `ext` free of '.' and '/', the stem is `n` and the suffix is `.ext` |
| Paths.SuffixOfDottedTail | metadata.py:40 | a name ending in `.ext` (no further '.' in `ext`) has suffix `.ext`, or none when the name is `.ext` itself |
| Paths.JsonKeyStemNonEmpty | metadata.py:250-251 | every key ending in `.json` has a non-empty stem |
| Classifier.CategoryNamed | metadata.py:69-70 | finds the category whose name is exactly the text, or reports that none is |
| Classifier.DetectCategory | metadata.py:84-95 | beginner whenever a beginner keyword occurs; advanced exactly when an advanced keyword occurs and no beginner one does; intermediate exactly when only intermediate keywords occur; otherwise beginner |
| Classifier.FirstRuleMatch | metadata.py:88-93 | a ranked rule list returns the first rule whose keywords occur, no earlier rule's keywords occurring, and finds none exactly when no rule's keywords occur |
| Classifier.DetectCategoryIsFirstRuleMatch | metadata.py:88-95 | keyword detection equals the first match of the ranked list (beginner, advanced, intermediate), with beginner as the default |
| Classifier.PrefixCategory | metadata.py:75-78 | returns category `c` exactly when the lower-cased stem starts with `c-` |
| Classifier.PrefixesExclusive | metadata.py:75-78 | no text starts with two different category names, so the order in which the prefixes are tried does not matter |
| Classifier.FolderCategory | metadata.py:66-70 | finds a category exactly when the key has a '/' and its lower-cased first segment names one, and then it is the category of that name |
| Classifier.KeyStem | metadata.py:63-64 | `Path(key).stem` never holds a '/' |
| Classifier.ParseStem | metadata.py:74-82 | outside the category folders: a `<category>-` prefix, matched without regard to case, decides the category and is cut off; with none, the keywords decide and the whole stem is kept; the result is a '/'-free tail of the stem |
| Classifier.KeyStemOfName | metadata.py:63-64 | the stem is a prefix of the key's last segment, empty only when that segment is |
| Classifier.ParseVideoInfo | metadata.py:61-82 | folder rule first, then the `<category>-` rule (clean name = stem minus `len(cat)+1` characters), then keywords on the whole stem; the clean name is always a '/'-free tail of the stem |
| Classifier.ParseFolderKey | metadata.py:66-72 | `Dir/name.ext`, with `Dir` naming a category in any case, gives that category and the stem of `name.ext` |
| Classifier.ParsePrefixOnlyKey | metadata.py:74-78 | `<category>-.<ext>` gives that category and an empty clean name |
| Classifier.ParseBeginnerDash | metadata.py:75-78 | `beginner-.mp4` is a beginner video whose clean name is empty |
| Classifier.DetectBeginnerBeforeAdvanced | metadata.py:88-91 | `intro_to_master` mentions an advanced keyword yet is a beginner video |
| Classifier.DetectWithoutKeywords | metadata.py:94-95 | `holiday` mentions no advanced or intermediate keyword and defaults to beginner |
| Inventory.Describe | metadata.py:42-51 | a video entry carries the key, its last segment, its size and URL, and the category and clean name of `parse_video_info` |
| Inventory.VideoBlobs | metadata.py:33-40 | the blobs kept are exactly the listed blobs outside `metadata/` with a video suffix |
| Inventory.ScanVideos | metadata.py:33-52 | one entry per kept blob, in listing order, each the description of that blob |
| Inventory.ScanVideosMembers | metadata.py:33-52 | a video entry is produced exactly when some listed blob passes both tests and is described by it |
| Inventory.ScanAppend | metadata.py:33-52 | scanning two listings in a row gives the two scans in a row |
| Inventory.ScanSkipsMetadataFolder | metadata.py:34-36 | blobs that all lie under `metadata/` contribute no video |
| Inventory.ListExistingVideos | metadata.py:24-59 | a failed listing yields no video even after blobs were delivered; a complete one yields the scan, each entry outside `metadata/`, with a video suffix and with the classifier's category and clean name |
| Inventory.TextFileIsNotVideo | metadata.py:38-40 | any key ending in `.txt`, at any depth and with any stem, is never a video |
| Inventory.UpperCaseExtensionIsVideo | metadata.py:40 | `.MP4` is recognised, because the suffix is compared lower-cased |
| Inventory.MetadataFolderVideoIsSkipped | metadata.py:35-36 | `metadata/intro.mp4` is skipped despite its video suffix |
| Title.DropSeparator | metadata.py:138 | removes the first character exactly when it is '-' or '_', and otherwise returns the text unchanged |
| Title.StripCategoryPrefix | metadata.py:138 | a leading category word, in any case and even glued to more letters, is removed with at most one separator after it; other text is unchanged |
| Title.CollapseSeparators | metadata.py:139 | the result has no separator; its other characters come from the input; separator-free text is unchanged; a leading separator run becomes a space |
| Title.CollapseAppend | metadata.py:139 | collapsing distributes over a concatenation that does not split a run of separators |
| Title.CollapseRun | metadata.py:139 | any non-empty run of '-' and '_' becomes exactly one space |
| Title.CollapseOneSeparator | metadata.py:139 | one separator between two separator-free texts becomes exactly one space |
| Title.RemoveDigits | metadata.py:140 | a character occurs in the result exactly when it is a non-digit character of the input; digit-free text is unchanged |
| Title.RemoveDigitsAppend | metadata.py:140 | removing digits distributes over concatenation, so the kept characters stay in input order |
| Title.RemoveTrailingDigits | metadata.py:140 | digits after a digit-free text are dropped and the text is kept |
| Title.CleanTitle | metadata.py:135-145 | the title is never empty, holds no digit, '-' or '_', is single-spaced, is "Training Video" when no word survives, and otherwise splits into the capitalised surviving words |
| Title.TitleWordsAreClean | metadata.py:138-140 | the words left by the first three steps hold no digit and no separator |
| Title.CapitalizeKeepsClean | metadata.py:143 | capitalising keeps words whitespace-free and free of digits and separators |
| Title.JoinedTitleShape | metadata.py:143 | the joined capitalised words are single-spaced and clean, empty only for no words, and split back into the capitalised words |
| Title.FallbackTitleShape | metadata.py:145 | "Training Video" is itself single-spaced and clean |
| Title.TwoWordsSurvive | metadata.py:139-143 | two letter runs around one separator come out of steps 2 and 3 as exactly those two words |
| Title.CleanTitleFromWords | metadata.py:143-145 | when words survive, the title is their capitalised join |
| Title.CleanTitleOfTwoWords | metadata.py:135-145 | `a-b` with no category word in front is titled `A B` (each part capitalised) |
| Title.StripLeadingCategory | metadata.py:138 | a category word in any case, followed by any text, is removed together with at most one separator |
| Title.CleanTitleOfGluedCategory | metadata.py:138-145 | a category word glued to more letters loses only the category word: `beginners-guide` is titled `S Guide` |
| Title.CleanTitleOfCategoryWordNumber | metadata.py:138-145 | a category word, a separator, a word, a separator and digits leave only the word: `Beginner_python_101` is titled `Python` |
| Title.CleanTitleEmptyName | metadata.py:144-145 | the empty name is titled "Training Video" |
| Synthesis.EstimateDuration | metadata.py:147-151 | always within [300, 7200]; equal to `size // 1048576 * 8` when that is in range; 300 exactly below 38 MiB; 7200 exactly from 900 MiB |
| Synthesis.EstimateDurationMonotone | metadata.py:147-151 | a larger file never gets a shorter estimate |
| Synthesis.EstimateDurationCases | metadata.py:150 | size 0 gives 300, 100 MiB gives 800, 900 MiB gives 7200 |
| Synthesis.LongWordsLower | metadata.py:155 | keeps at most as many words as given, each longer than three characters, whitespace-free, lower-case and the lower-cased form of a title word; every title word longer than three characters is kept, lower-cased |
| Synthesis.LongWordsAppend | metadata.py:155 | the words are kept in title order: a word added at the end adds its lower-cased form at the end exactly when it is longer than three characters |
| Synthesis.TitleKeywords | metadata.py:155-156 | exactly the first three long words, lower-cased, in title order, or all of them when there are fewer |
| Synthesis.Topics | metadata.py:153-157 | contains both seed topics and every title keyword, and nothing else: each further topic is one of the title keywords |
| Synthesis.TopicsOfJoinedWords | metadata.py:153-157 | for a title joined from words, the keywords are the first three long words, lower-cased, and the topics are the seed topics plus those keywords |
| Synthesis.Tags | metadata.py:189-193 | the topics plus the category: a tag is a seed topic, the category or a title keyword, and each of these is a tag; at most six tags |
| Synthesis.LearningObjectives | metadata.py:159-178 | three objectives from the category's table (beginner for an unknown name): the tier's opening followed by the lower-cased title, then the tier's two fixed objectives |
| Synthesis.LearningObjectivesLookup | metadata.py:159-178 | an unknown category reads the beginner table, and the three tables differ |
| Synthesis.Prerequisites | metadata.py:180-187 | the two intermediate prerequisites, the three advanced ones, none for beginner or an unknown name |
| Synthesis.Chapters | metadata.py:195-217 | four chapters, the first from 0, each with start < end and ending where the next starts, all within 1800 s; every chapter's title, description and end time are those of the category's table (advanced for an unknown name), and only the beginner outline's first description names the title |
| Synthesis.ChaptersFallback | metadata.py:211-217 | any name other than beginner and intermediate reads the advanced outline |
| Synthesis.OutlineIsOrdered | metadata.py:195-217 | in such an outline the start times strictly increase and each chapter ends no later than any later one starts |
| Synthesis.Slug | metadata.py:106 | same length as the clean name; each space or '_' becomes '-' and every other character is lower-cased |
| Synthesis.Synthesize | metadata.py:97-127 | every field of the record: both category fields hold the category name; the id is `<category>-<slug>`; the title is the cleaned name; the duration estimate; topics, tags, objectives, prerequisites and chapters from their generators; no thumbnail; the video's URL; the description and transcript templates; the fixed instructor and dates |
| Synthesis.Fields | metadata.py:109-127 | the record has exactly the seventeen keys, and each key holds its field's value as the dict literal sets it (`FieldValue`) |
| Synthesis.FieldsByName | metadata.py:110-121 | `category`, `difficulty_level`, `video_id` and `duration_seconds` hold the synthesised values |
| Synthesis.CreateMetadata | metadata.py:97-133 | keys are the seventeen plus the override keys; every override key holds the override value; every other key keeps its synthesised value; unless overridden, category and difficulty are the category name, the id is `<category>-<slug>`, and the duration is in [300, 7200] |
| Batch.RecordStems | metadata.py:248-252 | a stem is collected exactly when some blob under `metadata/` ending in `.json` has it |
| Batch.ExistingMetadata | metadata.py:246-254 | the same for the blobs the listing handed over, including those delivered before a listing error |
| Batch.ExistingMetadataPartial | metadata.py:247-254 | a listing cut short by an error knows no more stems than the complete listing |
| Batch.MetadataPath | metadata.py:223 | the record path lies under `metadata/` and ends in `.json` |
| Batch.MetadataPathRoundTrip | metadata.py:250-260 | the stem of a written record's path is the clean name again, when that is non-empty and '/'-free |
| Batch.EmptyCleanNameNeverRecorded | metadata.py:250-260 | the empty clean name is never among the existing stems; its record `metadata/.json` has the stem `.json` |
| Batch.Record | metadata.py:270 | the record a batch write uploads has exactly the seventeen keys |
| Batch.Decide | metadata.py:259-274 | skip exactly when the clean name has a record and `force` is off; otherwise write to the clean name's path with the upload's outcome |
| Batch.Plan | metadata.py:259-274 | one decision per video, each against the same set of existing stems |
| Batch.CountFacts | metadata.py:256-279 | skipped + generated ≤ total; no skip, all skips, no successful upload and no failed upload each show in the counts |
| Batch.CountSkipped | metadata.py:257-265 | the skipped count never exceeds the number of videos |
| Batch.CountGenerated | metadata.py:256-274 | the generated count never exceeds the number of videos |
| Batch.CountsArePositions | metadata.py:256-274 | the skipped count is the number of skipped positions, and the generated count the number of positions written and uploaded successfully |
| Batch.CountStep | metadata.py:265-274 | one more action adds one to at most one of the counts |
| Batch.RunOn | metadata.py:239-279 | no videos gives the early exit; otherwise the planned actions, one per video, skip iff known and not forced; skipped and generated are exactly the numbers of skipped positions and of successful uploads; with force nothing is skipped; all uploads succeeding gives skipped + generated = total; all skipped iff all known and not forced |
| Batch.RunBatch | metadata.py:235-279 | the run over the scanned videos and the stored stems; a failed video listing ends early |
| Batch.GenerateAllMetadata | metadata.py:235-279 | the counting loop returns the batch outcome |
| Batch.RunLoop | metadata.py:256-279 | the loop's running counts equal the counts of the actions so far, so the loop computes the batch outcome |
| Batch.SharedCleanNameWrittenTwice | metadata.py:246-274 | two unknown videos with the same clean name are both written, to the same path, because the set is not updated inside the loop |
| Batch.WrittenRecords | metadata.py:223-226 | the record keys left behind are exactly the paths of the successful uploads, each `Blob(path, 0, "")` |
| Batch.WrittenRecordsCount | metadata.py:256-274 | a run leaves exactly as many records as its generated count, one per successful upload |
| Batch.RecordBlobsAppend | metadata.py:259-274 | the records of two stretches of the loop are those of the first followed by those of the second |
| Batch.WrittenRecordsInMetadataFolder | metadata.py:223 | every record a run writes lies under `metadata/` |
| Batch.ScanIgnoresRecords | metadata.py:34-36 | adding blobs under `metadata/` leaves the video scan unchanged |
| Batch.RecordsLeaveScan | metadata.py:34-36 | the records a run writes leave the video scan unchanged |
| Batch.RunBatchIsRunOn | metadata.py:237-254 | the batch run is the run over the scanned videos and the stems of the delivered records |
| Batch.RunLeavesEveryName | metadata.py:246-274 | after a run whose uploads all succeed, the stored records plus the written ones hold every clean name, when the clean names are non-empty and '/'-free |
| Batch.AllKnownAllSkipped | metadata.py:263-266 | without force, videos whose names are all known are all skipped |
| Batch.RerunOn | metadata.py:246-274 | for clean names that are non-empty and '/'-free, rerunning over the same videos after a fully successful run skips every video (an empty clean name is written again; see EmptyCleanNameAlwaysWritten) |
| Batch.RerunSeesSameVideos | metadata.py:235-254 | the second run sees the same videos, and the first run's records among the stored stems |
| Batch.RerunSkipsEverything | metadata.py:235-279 | rerunning the batch, without force, after every upload succeeded skips every video and generates nothing, provided no clean name is empty |
| Batch.EmptyCleanNameAlwaysWritten | metadata.py:259-274 | a video with an empty clean name, such as `beginner-.mp4` (`Classifier.ParseBeginnerDash`), is written on every run |
| Batch.FindVideo | metadata.py:286-289 | finds nothing exactly when no video matches key or file name; otherwise the first matching index |
| Batch.SingleRecord | metadata.py:296 | the record for one video has the seventeen keys plus the override keys; overrides win, and every other key keeps its synthesised value |
| Batch.RunSingle | metadata.py:281-299 | not found exactly when no video matches; otherwise the first match's record, path and overrides |
| Batch.GenerateForVideo | metadata.py:281-299 | the single run over the scanned videos; a failed listing finds nothing |
| Batch.FailedListingFindsNothing | metadata.py:283-293 | a failed listing finds no video to write |

## Left out

- The storage service (`BlobServiceClient`, `list_blobs`, `upload_blob`) is not modelled. A listing is given as data and each upload's success as a boolean, because it is a foreign network API.
- The public URL built with `urllib.parse.quote` is not modelled; it is carried as an opaque `url` field of each blob, because `quote` is a foreign library function.
- `json.dumps` is not modelled; a record is a `map<string, Json>`. `JStrSet` stands for the lists built with `list(set(...))`, whose order Python does not define.
- All `print` output, exception messages, `main`, argparse and dotenv loading are left out, because they are I/O.
- Case mapping covers ASCII letters only; Python's full Unicode `lower`/`capitalize`/`isspace` is not modelled.
- Python's `in`, used on the keyword lists and the video-extension set, is modelled directly as substring and set membership.
- Paths.FileName: takes the text after the last '/' as is. `pathlib` drops a trailing slash and a trailing `.` segment, so keys such as `beginner/x.mp4/` and `x.mp4/.` are not normalised as Python would.
- Paths: only '/' separates segments. On Windows `Path` is a `WindowsPath`, where `\` separates too; that platform's parsing is not modelled.
- Title.RemoveDigits: drops '0'..'9' only. Python's `\d` also matches other Unicode decimal digits, and those stay in the title here.
- Batch.WrittenRecords: a written record blob has size 0 and an empty URL, because the serialised size and the address are outside the model.
- Batch.RunSingle: the upload's success in the single-video run is not modelled, because the source ignores it.
- Batch.RerunSkipsEverything: requires every clean name to be non-empty. `Batch.EmptyCleanNameAlwaysWritten` shows why: an empty clean name is written to `metadata/.json`, whose stem `.json` never matches it.
- Batch.RerunOn: requires every upload of the first run to succeed and every clean name to be non-empty and '/'-free. Clean names from `Classifier.ParseVideoInfo` are always '/'-free; an empty one is written again on every rerun, as `Batch.EmptyCleanNameAlwaysWritten` shows.
- Batch.Record: states the record's key set only; its values are the ones `Synthesis.CreateMetadata` states, since a batch write has no overrides.
- Synthesis.CreateMetadata: `custom_data=None` is modelled as the empty map. `if custom_data:` skips an empty dict, and merging an empty map changes nothing, so the two agree.

=== FILE: batch.dfy ===
/** The two drivers: the batch run over every video (`generate_all_metadata`)
    and the run for one named video (`generate_metadata_for_video`). The
    storage service is replaced by the listings it returns and by the
    outcome of each upload, given in advance. */
module Batch {
  import opened Wrappers
  import opened Text
  import opened Paths
  import opened Classifier
  import opened Inventory
  import opened Synthesis
  import F = RecordFields

  // ---- Records already in storage ----

  /** The blobs a listing handed over, whether or not it then failed. */
  function Delivered(listing: Listing): seq<Blob> {
    match listing
    case Listed(blobs) => blobs
    case FailedAfter(blobs) => blobs
  }

  /** A stored record: a `.json` key under the metadata folder. */
  predicate IsRecordKey(name: string) {
    StartsWith(name, MetadataFolder) && EndsWith(name, ".json")
  }

  /** The stems of the record keys among `blobs`. */
  function RecordStems(blobs: seq<Blob>): (r: set<string>)
    ensures forall s :: s in r <==> exists b :: b in blobs && IsRecordKey(b.name) && s == Stem(FileName(b.name))
  {
    if |blobs| == 0 then {}
    else
      var rest := RecordStems(blobs[1..]);
      assert forall b :: b in blobs <==> b == blobs[0] || b in blobs[1..];
      if IsRecordKey(blobs[0].name) then {Stem(FileName(blobs[0].name))} + rest else rest
  }

  /** The clean names that already have a record. A listing error is
      swallowed: the stems collected before it are kept. */
  function ExistingMetadata(listing: Listing): (r: set<string>)
    ensures forall s :: s in r <==>
              exists b :: b in Delivered(listing) && IsRecordKey(b.name) && s == Stem(FileName(b.name))
  {
    RecordStems(Delivered(listing))
  }

  /** A listing cut short by an error never knows more records than the
      complete listing would have. */
  lemma ExistingMetadataPartial(delivered: seq<Blob>, rest: seq<Blob>)
    ensures ExistingMetadata(FailedAfter(delivered)) <= ExistingMetadata(Listed(delivered + rest))
  {
    forall s | s in ExistingMetadata(FailedAfter(delivered))
      ensures s in ExistingMetadata(Listed(delivered + rest))
    {
      var b :| b in delivered && IsRecordKey(b.name) && s == Stem(FileName(b.name));
      assert b in delivered + rest;
    }
  }

  /** Where the record of a clean name is written. */
  function MetadataPath(cleanName: string): (p: string)
    ensures IsRecordKey(p)
  {
    var p := MetadataFolder + cleanName + ".json";
    assert p[..|MetadataFolder|] == MetadataFolder;
    assert p[|p| - 5..] == ".json";
    p
  }

  /** A written record is found again under its clean name, provided the
      name is not empty; the clean names of scanned videos never hold a
      '/'. */
  lemma MetadataPathRoundTrip(cleanName: string)
    requires cleanName != "" && '/' !in cleanName
    ensures Stem(FileName(MetadataPath(cleanName))) == cleanName
  {
    StemOfMetadataPath(cleanName);
  }

  /** No stored record has an empty stem, so a video whose clean name is
      empty never counts as having a record: its record is written as
      `metadata/.json`, whose stem is `.json`. */
  lemma EmptyCleanNameNeverRecorded(listing: Listing)
    ensures "" !in ExistingMetadata(listing)
    ensures Stem(FileName(MetadataPath(""))) == ".json"
  {
    forall b | b in Delivered(listing) && IsRecordKey(b.name)
      ensures Stem(FileName(b.name)) != ""
    {
      JsonKeyStemNonEmpty(b.name);
    }
    assert MetadataPath("") == "metadata/" + "" + ".json";
    StemOfEmptyMetadataPath();
  }

  // ---- The batch run ----

  /** What the batch run does with one video: skip it, or write the
      record of `video` to `path`. */
  datatype Action =
    | Skipped
    | Written(path: string, video: VideoInfo, uploaded: bool)

  /** The record a write uploads: the synthesised record, no overrides. */
  function Record(a: Action): (r: map<string, Json>)
    requires a.Written?
    ensures r.Keys == F.RecordKeys
  {
    CreateMetadata(a.video, map[])
  }

  /** Whether the upload for the video at `i` succeeds; a missing entry is
      a failure. */
  function UploadOk(uploads: seq<bool>, i: int): bool {
    0 <= i < |uploads| && uploads[i]
  }

  /** One step of the loop: skip a video whose clean name already has a
      record unless `force` is set; otherwise write its record. */
  function Decide(video: VideoInfo, existing: set<string>, force: bool, uploadOk: bool): (a: Action)
    ensures a.Skipped? <==> video.cleanName in existing && !force
    ensures a.Written? ==>
              && a.path == MetadataPath(video.cleanName)
              && a.video == video
              && a.uploaded == uploadOk
  {
    if video.cleanName in existing && !force then Skipped
    else Written(MetadataPath(video.cleanName), video, uploadOk)
  }

  /** The loop's actions. The set of existing records is read once before
      the loop and never updated by the loop's own writes. */
  function Plan(videos: seq<VideoInfo>, existing: set<string>, force: bool, uploads: seq<bool>): (r: seq<Action>)
    ensures |r| == |videos|
    ensures forall i :: 0 <= i < |r| ==> r[i] == Decide(videos[i], existing, force, UploadOk(uploads, i))
  {
    seq(|videos|, i requires 0 <= i < |videos| => Decide(videos[i], existing, force, UploadOk(uploads, i)))
  }

  /** The number of skipped videos. */
  function CountSkipped(actions: seq<Action>): (r: nat)
    ensures r <= |actions|
  {
    if |actions| == 0 then 0
    else CountSkipped(actions[..|actions| - 1]) + if actions[|actions| - 1].Skipped? then 1 else 0
  }

  /** The number of records written and uploaded successfully. */
  function CountGenerated(actions: seq<Action>): (r: nat)
    ensures r <= |actions|
  {
    if |actions| == 0 then 0
    else
      var last := actions[|actions| - 1];
      CountGenerated(actions[..|actions| - 1]) + if last.Written? && last.uploaded then 1 else 0
  }

  /** The positions of the skipped videos. */
  function SkippedAt(actions: seq<Action>): set<nat> {
    set i: nat | i < |actions| && actions[i].Skipped?
  }

  /** The positions of the records written and uploaded successfully. */
  function UploadedAt(actions: seq<Action>): set<nat> {
    set i: nat | i < |actions| && actions[i].Written? && actions[i].uploaded
  }

  /** The positions of all but the last action keep their classes. */
  lemma PositionsStep(actions: seq<Action>)
    requires |actions| > 0
    ensures var n := |actions| - 1;
            && SkippedAt(actions) == SkippedAt(actions[..n]) + (if actions[n].Skipped? then {n} else {})
            && UploadedAt(actions) == UploadedAt(actions[..n])
                 + (if actions[n].Written? && actions[n].uploaded then {n} else {})
            && n !in SkippedAt(actions[..n]) && n !in UploadedAt(actions[..n])
  {
    var n := |actions| - 1;
    assert forall i :: 0 <= i < n ==> actions[..n][i] == actions[i];
  }

  /** Each count is the number of positions it counts. */
  lemma {:induction false} CountsArePositions(actions: seq<Action>)
    ensures CountSkipped(actions) == |SkippedAt(actions)|
    ensures CountGenerated(actions) == |UploadedAt(actions)|
  {
    if |actions| > 0 {
      CountsArePositions(actions[..|actions| - 1]);
      PositionsStep(actions);
    }
  }

  /** What the two counts say about the actions: together they never
      exceed the number of actions; no skip, all skips, no successful
      upload, and no failed upload each show in the counts. */
  lemma {:induction false} CountFacts(actions: seq<Action>)
    ensures CountSkipped(actions) + CountGenerated(actions) <= |actions|
    ensures CountSkipped(actions) == 0 <==> forall i :: 0 <= i < |actions| ==> !actions[i].Skipped?
    ensures CountSkipped(actions) == |actions| <==> forall i :: 0 <= i < |actions| ==> actions[i].Skipped?
    ensures CountGenerated(actions) == 0 <==>
              forall i :: 0 <= i < |actions| ==> !(actions[i].Written? && actions[i].uploaded)
    ensures CountSkipped(actions) + CountGenerated(actions) == |actions| <==>
              forall i :: 0 <= i < |actions| ==> actions[i].Written? ==> actions[i].uploaded
  {
    if |actions| > 0 {
      var init := actions[..|actions| - 1];
      CountFacts(init);
      assert forall i :: 0 <= i < |init| ==> init[i] == actions[i];
    }
  }

  /** Appending one action adds at most one to one of the counts. */
  lemma CountStep(actions: seq<Action>, a: Action)
    ensures CountSkipped(actions + [a]) == CountSkipped(actions) + if a.Skipped? then 1 else 0
    ensures CountGenerated(actions + [a]) == CountGenerated(actions) + if a.Written? && a.uploaded then 1 else 0
  {
    assert (actions + [a])[..|actions|] == actions;
  }

  /** The summary the batch run prints, or the early exit when the scan
      finds no video. */
  datatype BatchOutcome =
    | NoVideos
    | Completed(actions: seq<Action>, generated: nat, skipped: nat, total: nat)

  /** The batch run over the scanned videos, given the clean names that
      already have a record. */
  function RunOn(videos: seq<VideoInfo>, existing: set<string>, force: bool, uploads: seq<bool>): (o: BatchOutcome)
    ensures o.NoVideos? <==> videos == []
    ensures o.Completed? ==>
              && o.actions == Plan(videos, existing, force, uploads)
              && o.skipped == |SkippedAt(o.actions)|
              && o.generated == |UploadedAt(o.actions)|
              && o.total == |o.actions| == |videos|
              && o.skipped + o.generated <= o.total
              && (force ==> o.skipped == 0)
              && (forall i :: 0 <= i < o.total ==>
                    (o.actions[i].Skipped? <==> videos[i].cleanName in existing && !force))
              && ((forall i :: 0 <= i < o.total ==> UploadOk(uploads, i)) ==> o.skipped + o.generated == o.total)
              && (o.skipped == o.total <==> forall i :: 0 <= i < o.total ==> videos[i].cleanName in existing && !force)
  {
    if |videos| == 0 then NoVideos
    else
      var actions := Plan(videos, existing, force, uploads);
      CountFacts(actions);
      CountsArePositions(actions);
      Completed(actions, CountGenerated(actions), CountSkipped(actions), |videos|)
  }

  /** `generate_all_metadata(force)`. `uploads[i]` is the outcome of the
      upload for the i-th scanned video, if it is written. */
  function RunBatch(videoListing: Listing, metadataListing: Listing, force: bool, uploads: seq<bool>): (o: BatchOutcome)
    ensures o == RunOn(ListExistingVideos(videoListing), ExistingMetadata(metadataListing), force, uploads)
    ensures videoListing.FailedAfter? ==> o == NoVideos
  {
    RunOn(ListExistingVideos(videoListing), ExistingMetadata(metadataListing), force, uploads)
  }

  /** The loop of `generate_all_metadata`, counting as it goes. */
  method GenerateAllMetadata(videoListing: Listing, metadataListing: Listing, force: bool, uploads: seq<bool>)
    returns (o: BatchOutcome)
    ensures o == RunBatch(videoListing, metadataListing, force, uploads)
    ensures o.Completed? ==> o.skipped + o.generated <= o.total
  {
    var videos := ListExistingVideos(videoListing);
    var existing := ExistingMetadata(metadataListing);
    o := RunLoop(videos, existing, force, uploads);
  }

  /** The loop itself, over the scanned videos. */
  method RunLoop(videos: seq<VideoInfo>, existing: set<string>, force: bool, uploads: seq<bool>)
    returns (o: BatchOutcome)
    ensures o == RunOn(videos, existing, force, uploads)
  {
    if |videos| == 0 {
      return NoVideos;
    }
    ghost var plan := Plan(videos, existing, force, uploads);
    var actions: seq<Action> := [];
    var generated: nat := 0;
    var skipped: nat := 0;
    var i := 0;
    while i < |videos|
      invariant 0 <= i <= |videos|
      invariant actions == plan[..i]
      invariant generated == CountGenerated(actions)
      invariant skipped == CountSkipped(actions)
    {
      var a := Decide(videos[i], existing, force, UploadOk(uploads, i));
      CountStep(actions, a);
      skipped := skipped + if a.Skipped? then 1 else 0;
      generated := generated + if a.Written? && a.uploaded then 1 else 0;
      PrefixStep(plan, i);
      actions := actions + [a];
      i := i + 1;
    }
    assert actions == plan;
    o := Completed(actions, generated, skipped, |videos|);
  }

  /** A prefix one longer is the prefix with the next element appended. */
  lemma PrefixStep<T>(s: seq<T>, i: nat)
    requires i < |s|
    ensures s[..i + 1] == s[..i] + [s[i]]
  {
  }

  /** Two videos with the same clean name that has no record yet are both
      written, to the same path: the second write replaces the first. */
  lemma SharedCleanNameWrittenTwice(videoListing: Listing, metadataListing: Listing, force: bool,
                                    uploads: seq<bool>, i: nat, j: nat)
    requires var vs := ListExistingVideos(videoListing);
             i < j < |vs| && vs[i].cleanName == vs[j].cleanName
             && vs[i].cleanName !in ExistingMetadata(metadataListing)
    ensures var o := RunBatch(videoListing, metadataListing, force, uploads);
            o.Completed? && o.actions[i].Written? && o.actions[j].Written?
            && o.actions[i].path == o.actions[j].path
  {
  }

  /** The record blobs a completed run leaves behind: one per upload that
      succeeded. Their size and address are not modelled. */
  function WrittenRecords(actions: seq<Action>): (r: seq<Blob>)
    ensures forall k :: 0 <= k < |r| ==>
              exists i :: 0 <= i < |actions| && actions[i].Written? && actions[i].uploaded
                && r[k] == Blob(actions[i].path, 0, "")
    ensures forall i :: 0 <= i < |actions| && actions[i].Written? && actions[i].uploaded ==>
              Blob(actions[i].path, 0, "") in r
  {
    RecordBlobsMembers(actions);
    RecordBlobs(actions)
  }

  /** The records, in the order of the actions. */
  function RecordBlobs(actions: seq<Action>): seq<Blob> {
    if |actions| == 0 then []
    else
      var a := actions[0];
      (if a.Written? && a.uploaded then [Blob(a.path, 0, "")] else []) + RecordBlobs(actions[1..])
  }

  /** Each record comes from a successful upload, and each successful
      upload left its record. */
  lemma {:induction false} RecordBlobsMembers(actions: seq<Action>)
    ensures forall k :: 0 <= k < |RecordBlobs(actions)| ==>
              exists i :: 0 <= i < |actions| && actions[i].Written? && actions[i].uploaded
                && RecordBlobs(actions)[k] == Blob(actions[i].path, 0, "")
    ensures forall i :: 0 <= i < |actions| && actions[i].Written? && actions[i].uploaded ==>
              Blob(actions[i].path, 0, "") in RecordBlobs(actions)
    decreases |actions|
  {
    if |actions| > 0 {
      var x := actions[0];
      var head := if x.Written? && x.uploaded then [Blob(x.path, 0, "")] else [];
      var rest := RecordBlobs(actions[1..]);
      RecordBlobsMembers(actions[1..]);
      var r := RecordBlobs(actions);
      assert r == head + rest;
      forall k | 0 <= k < |r|
        ensures exists i :: 0 <= i < |actions| && actions[i].Written? && actions[i].uploaded
                  && r[k] == Blob(actions[i].path, 0, "")
      {
        if k < |head| {
          assert r[k] == Blob(actions[0].path, 0, "");
        } else {
          var m := k - |head|;
          assert r[k] == rest[m];
          var j :| 0 <= j < |actions[1..]| && actions[1..][j].Written? && actions[1..][j].uploaded
                   && rest[m] == Blob(actions[1..][j].path, 0, "");
          assert actions[j + 1] == actions[1..][j];
        }
      }
      forall i | 0 <= i < |actions| && actions[i].Written? && actions[i].uploaded
        ensures Blob(actions[i].path, 0, "") in r
      {
        if i > 0 {
          assert actions[1..][i - 1] == actions[i];
          assert Blob(actions[i].path, 0, "") in rest;
        }
      }
    } else {
      assert RecordBlobs(actions) == [];
    }
  }

  /** The records of two runs of actions in a row are those of the first
      followed by those of the second. */
  lemma {:induction false} RecordBlobsAppend(a: seq<Action>, b: seq<Action>)
    ensures RecordBlobs(a + b) == RecordBlobs(a) + RecordBlobs(b)
    decreases |a|
  {
    if |a| > 0 {
      assert (a + b)[0] == a[0] && (a + b)[1..] == a[1..] + b;
      RecordBlobsAppend(a[1..], b);
    } else {
      assert a + b == b;
    }
  }

  /** A run leaves exactly as many records as it reports generated: one
      per successful upload. */
  lemma {:induction false} WrittenRecordsCount(actions: seq<Action>)
    ensures |WrittenRecords(actions)| == CountGenerated(actions) == |UploadedAt(actions)|
    decreases |actions|
  {
    CountsArePositions(actions);
    if |actions| > 0 {
      var n := |actions| - 1;
      assert actions == actions[..n] + [actions[n]];
      RecordBlobsAppend(actions[..n], [actions[n]]);
      WrittenRecordsCount(actions[..n]);
    }
  }

  /** Every record a run writes lies in the metadata folder. */
  lemma WrittenRecordsInMetadataFolder(videos: seq<VideoInfo>, existing: set<string>, force: bool, uploads: seq<bool>)
    requires RunOn(videos, existing, force, uploads).Completed?
    ensures var records := WrittenRecords(RunOn(videos, existing, force, uploads).actions);
            forall k :: 0 <= k < |records| ==> StartsWith(records[k].name, MetadataFolder)
  {
    var actions := RunOn(videos, existing, force, uploads).actions;
    assert forall i :: 0 <= i < |actions| && actions[i].Written? ==> IsRecordKey(actions[i].path);
    RecordsUnderFolder(actions);
  }

  /** Writes to record keys leave records in the metadata folder only. */
  lemma {:induction false} RecordsUnderFolder(actions: seq<Action>)
    requires forall i :: 0 <= i < |actions| && actions[i].Written? ==> IsRecordKey(actions[i].path)
    ensures forall k :: 0 <= k < |WrittenRecords(actions)| ==> StartsWith(WrittenRecords(actions)[k].name, MetadataFolder)
  {
    if |actions| > 0 {
      assert forall i :: 1 <= i < |actions| ==> actions[1..][i - 1] == actions[i];
      RecordsUnderFolder(actions[1..]);
    }
  }

  /** Adding blobs under the metadata folder leaves the scan unchanged. */
  lemma ScanIgnoresRecords(blobs: seq<Blob>, records: seq<Blob>)
    requires forall k :: 0 <= k < |records| ==> StartsWith(records[k].name, MetadataFolder)
    ensures ListExistingVideos(Listed(blobs + records)) == ListExistingVideos(Listed(blobs))
  {
    ScanAppend(blobs, records);
    ScanSkipsMetadataFolder(records);
    assert ScanVideos(blobs) + [] == ScanVideos(blobs);
  }

  /** After a run whose uploads all succeeded, every clean name has a
      record: one that was there before, or the one just written. */
  lemma RunLeavesEveryName(videos: seq<VideoInfo>, stored: seq<Blob>, force: bool, uploads: seq<bool>)
    requires RunOn(videos, RecordStems(stored), force, uploads).Completed?
    requires forall i :: 0 <= i < |videos| ==> UploadOk(uploads, i)
    requires forall i :: 0 <= i < |videos| ==> videos[i].cleanName != "" && '/' !in videos[i].cleanName
    ensures var records := WrittenRecords(RunOn(videos, RecordStems(stored), force, uploads).actions);
            forall i :: 0 <= i < |videos| ==> videos[i].cleanName in RecordStems(stored + records)
  {
    var o := RunOn(videos, RecordStems(stored), force, uploads);
    var records := WrittenRecords(o.actions);
    forall i | 0 <= i < |videos|
      ensures videos[i].cleanName in RecordStems(stored + records)
    {
      var clean := videos[i].cleanName;
      if o.actions[i].Skipped? {
        var b :| b in stored && IsRecordKey(b.name) && clean == Stem(FileName(b.name));
        assert b in stored + records;
      } else {
        var rec := Blob(MetadataPath(clean), 0, "");
        assert rec in records;
        assert rec in stored + records;
        MetadataPathRoundTrip(clean);
      }
    }
  }

  /** A completed run over `total` videos that skipped every one of them
      and wrote nothing. */
  predicate SkippedAll(o: BatchOutcome, total: nat) {
    o.Completed? && o.total == total && o.generated == 0 && o.skipped == total
  }

  /** Every upload of a run succeeds and every clean name is a non-empty
      name without '/'. */
  predicate CleanRun(videos: seq<VideoInfo>, uploads: seq<bool>) {
    forall i :: 0 <= i < |videos| ==>
      UploadOk(uploads, i) && videos[i].cleanName != "" && '/' !in videos[i].cleanName
  }

  /** Running the batch a second time, after every upload of the first
      run succeeded, skips every video and writes nothing, provided no
      video has an empty clean name. The second run sees the same videos,
      because the new records lie in the metadata folder, and sees a record
      for every clean name. */
  lemma RerunSkipsEverything(blobs: seq<Blob>, metadataListing: Listing, force: bool,
                             uploads: seq<bool>, uploads2: seq<bool>)
    requires RunBatch(Listed(blobs), metadataListing, force, uploads).Completed?
    requires forall i :: 0 <= i < |ListExistingVideos(Listed(blobs))| ==> UploadOk(uploads, i)
    requires forall i :: 0 <= i < |ListExistingVideos(Listed(blobs))| ==>
               ListExistingVideos(Listed(blobs))[i].cleanName != ""
    ensures var o := RunBatch(Listed(blobs), metadataListing, force, uploads);
            var records := WrittenRecords(o.actions);
            var o2 := RunBatch(Listed(blobs + records), Listed(Delivered(metadataListing) + records), false, uploads2);
            SkippedAll(o2, o.total)
  {
    RerunSeesSameVideos(blobs, metadataListing, force, uploads, uploads2);
    RerunOn(ListExistingVideos(Listed(blobs)), Delivered(metadataListing), force, uploads, uploads2);
  }

  /** Both runs see the scanned videos of the first listing: the records
      the first run writes do not change the scan. */
  lemma RerunSeesSameVideos(blobs: seq<Blob>, metadataListing: Listing, force: bool,
                            uploads: seq<bool>, uploads2: seq<bool>)
    requires RunBatch(Listed(blobs), metadataListing, force, uploads).Completed?
    ensures var videos := ListExistingVideos(Listed(blobs));
            var stored := Delivered(metadataListing);
            var o := RunBatch(Listed(blobs), metadataListing, force, uploads);
            var records := WrittenRecords(o.actions);
            && o == RunOn(videos, RecordStems(stored), force, uploads)
            && RunBatch(Listed(blobs + records), Listed(stored + records), false, uploads2) ==
               RunOn(videos, RecordStems(stored + records), false, uploads2)
  {
    var videos := ListExistingVideos(Listed(blobs));
    var stored := Delivered(metadataListing);
    RunBatchIsRunOn(Listed(blobs), metadataListing, force, uploads);
    RecordsLeaveScan(blobs, videos, RecordStems(stored), force, uploads);
    var records := WrittenRecords(RunOn(videos, RecordStems(stored), force, uploads).actions);
    RunBatchIsRunOn(Listed(blobs + records), Listed(stored + records), false, uploads2);
  }

  /** The records a run writes leave the scan of the video container as
      it was. */
  lemma RecordsLeaveScan(blobs: seq<Blob>, videos: seq<VideoInfo>, existing: set<string>, force: bool, uploads: seq<bool>)
    requires RunOn(videos, existing, force, uploads).Completed?
    ensures ListExistingVideos(Listed(blobs + WrittenRecords(RunOn(videos, existing, force, uploads).actions))) ==
            ListExistingVideos(Listed(blobs))
  {
    WrittenRecordsInMetadataFolder(videos, existing, force, uploads);
    ScanIgnoresRecords(blobs, WrittenRecords(RunOn(videos, existing, force, uploads).actions));
  }

  /** The batch run is the run over the scanned videos and the stems of
      the delivered records. */
  lemma RunBatchIsRunOn(videoListing: Listing, metadataListing: Listing, force: bool, uploads: seq<bool>)
    ensures RunBatch(videoListing, metadataListing, force, uploads) ==
            RunOn(ListExistingVideos(videoListing), RecordStems(Delivered(metadataListing)), force, uploads)
  {
  }

  /** The rerun over the same videos, once the records the first run
      wrote are stored, skips every video. */
  lemma RerunOn(videos: seq<VideoInfo>, stored: seq<Blob>, force: bool, uploads: seq<bool>, uploads2: seq<bool>)
    requires RunOn(videos, RecordStems(stored), force, uploads).Completed?
    requires CleanRun(videos, uploads)
    ensures var o := RunOn(videos, RecordStems(stored), force, uploads);
            SkippedAll(RunOn(videos, RecordStems(stored + WrittenRecords(o.actions)), false, uploads2), o.total)
  {
    var records := WrittenRecords(RunOn(videos, RecordStems(stored), force, uploads).actions);
    RunLeavesEveryName(videos, stored, force, uploads);
    AllKnownAllSkipped(videos, RecordStems(stored + records), uploads2);
  }

  /** A run without `force` over videos whose clean names all have a
      record skips them all and writes nothing. */
  lemma AllKnownAllSkipped(videos: seq<VideoInfo>, existing: set<string>, uploads: seq<bool>)
    requires |videos| > 0
    requires forall i :: 0 <= i < |videos| ==> videos[i].cleanName in existing
    ensures var o := RunOn(videos, existing, false, uploads);
            o.Completed? && o.total == |videos| && o.generated == 0 && o.skipped == o.total
  {
  }

  /** A video whose clean name is empty is written on every run, so a
      rerun does not skip it. `beginner-.mp4` is such a video
      (`Classifier.ParseBeginnerDash`). */
  lemma EmptyCleanNameAlwaysWritten(videos: seq<VideoInfo>, metadataListing: Listing, force: bool,
                                    uploads: seq<bool>, i: nat)
    requires i < |videos| && videos[i].cleanName == ""
    ensures RunOn(videos, ExistingMetadata(metadataListing), force, uploads).actions[i].Written?
  {
    EmptyCleanNameNeverRecorded(metadataListing);
  }

  // ---- One named video ----

  /** The lookup test: the full key or its last segment. */
  predicate Matches(video: VideoInfo, target: string) {
    video.blobName == target || video.fileName == target
  }

  /** The first scanned video that matches, if any. */
  function FindVideo(videos: seq<VideoInfo>, target: string): (r: Option<nat>)
    ensures r.None? <==> forall i :: 0 <= i < |videos| ==> !Matches(videos[i], target)
    ensures r.Some? ==> r.value < |videos| && Matches(videos[r.value], target)
    ensures r.Some? ==> forall j :: 0 <= j < r.value ==> !Matches(videos[j], target)
  {
    if |videos| == 0 then None
    else if Matches(videos[0], target) then Some(0)
    else
      match FindVideo(videos[1..], target)
      case None =>
        assert forall i :: 1 <= i < |videos| ==> videos[i] == videos[1..][i - 1];
        None
      case Some(k) =>
        assert forall j :: 1 <= j < k + 1 ==> videos[j] == videos[1..][j - 1];
        Some(k + 1)
  }

  /** What the run for one video does: nothing when no video matches, or
      the upload of one record. The upload's own outcome is ignored. */
  datatype SingleOutcome = NotFound | Uploaded(path: string, video: VideoInfo, custom: map<string, Json>)

  /** The record the run for one video uploads. */
  function SingleRecord(o: SingleOutcome): (r: map<string, Json>)
    requires o.Uploaded?
    ensures r.Keys == F.RecordKeys + o.custom.Keys
    ensures forall k :: k in o.custom ==> r[k] == o.custom[k]
    ensures forall k :: k in F.RecordKeys && k !in o.custom ==> r[k] == Fields(Synthesize(o.video))[k]
  {
    CreateMetadata(o.video, o.custom)
  }

  /** The run for one video over the scanned videos: the first video whose
      key or file name is `target` gets its record, with the override
      fields merged, written under its clean name. */
  function RunSingle(videos: seq<VideoInfo>, target: string, custom: map<string, Json>): (o: SingleOutcome)
    ensures o.NotFound? <==> forall i :: 0 <= i < |videos| ==> !Matches(videos[i], target)
    ensures o.Uploaded? ==>
              exists i :: 0 <= i < |videos| && Matches(videos[i], target)
                && (forall j :: 0 <= j < i ==> !Matches(videos[j], target))
                && o.path == MetadataPath(videos[i].cleanName)
                && o.video == videos[i] && o.custom == custom
  {
    match FindVideo(videos, target)
    case None => NotFound
    case Some(i) => Uploaded(MetadataPath(videos[i].cleanName), videos[i], custom)
  }

  /** `generate_metadata_for_video(target, custom)`. */
  function GenerateForVideo(listing: Listing, target: string, custom: map<string, Json>): (o: SingleOutcome)
    ensures o == RunSingle(ListExistingVideos(listing), target, custom)
    ensures listing.FailedAfter? ==> o == NotFound
  {
    RunSingle(ListExistingVideos(listing), target, custom)
  }

  /** A failed listing finds nothing. */
  lemma FailedListingFindsNothing(delivered: seq<Blob>, target: string, custom: map<string, Json>)
    ensures GenerateForVideo(FailedAfter(delivered), target, custom) == NotFound
  {
  }
}

=== FILE: classifier.dfy ===
/** Classification of a storage key into a difficulty category and a clean
    display name (`parse_video_info` and `detect_category_from_filename`).
    Three rules are tried in order and the first that applies decides:
    a category folder, then a `<category>-` prefix on the stem, then
    keyword detection on the stem. */
module Classifier {
  import opened Wrappers
  import opened Text
  import opened Paths

  /** The three difficulty tiers. */
  datatype Category = Beginner | Intermediate | Advanced {
    /** The tier's name as it appears in keys, records and tables. */
    function Name(): string {
      match this
      case Beginner => "beginner"
      case Intermediate => "intermediate"
      case Advanced => "advanced"
    }
  }

  /** The category whose name is exactly `s`, if there is one. */
  function CategoryNamed(s: string): (r: Option<Category>)
    ensures r.Some? ==> r.value.Name() == s
    ensures r.None? ==> forall c: Category :: c.Name() != s
  {
    if s == "beginner" then Some(Beginner)
    else if s == "intermediate" then Some(Intermediate)
    else if s == "advanced" then Some(Advanced)
    else None
  }

  /** The stem of the key's last segment (`Path(key).stem`). */
  function KeyStem(key: string): (r: string)
    ensures '/' !in r
  {
    var name := FileName(key);
    var stem := Stem(name);
    assert forall i :: 0 <= i < |stem| ==> stem[i] == name[i];
    stem
  }

  /** The stem is a prefix of the key's last segment, empty only when that
      segment is. */
  lemma KeyStemOfName(key: string)
    ensures StartsWith(FileName(key), KeyStem(key))
    ensures |KeyStem(key)| > 0 <==> |FileName(key)| > 0
  {
  }

  // ---- Stage 3: keyword detection ----

  const BeginnerKeywords: seq<string> := ["beginner", "basic", "intro", "fundamentals", "101", "start"]
  const AdvancedKeywords: seq<string> := ["advanced", "expert", "master", "professional", "deep"]
  const IntermediateKeywords: seq<string> := ["intermediate", "medium", "standard", "level2"]

  /** `any(word in s for word in keywords)`. */
  predicate MentionsAny(s: string, keywords: seq<string>) {
    exists k :: k in keywords && Contains(s, k)
  }

  /** The keyword rule on a file stem. Beginner keywords are tried first,
      then advanced, then intermediate; a stem that mentions none of them
      is a beginner video. */
  function DetectCategory(fileName: string): (c: Category)
    ensures MentionsAny(ToLower(fileName), BeginnerKeywords) ==> c == Beginner
    ensures c == Advanced <==>
              !MentionsAny(ToLower(fileName), BeginnerKeywords) && MentionsAny(ToLower(fileName), AdvancedKeywords)
    ensures c == Intermediate <==>
              && !MentionsAny(ToLower(fileName), BeginnerKeywords)
              && !MentionsAny(ToLower(fileName), AdvancedKeywords)
              && MentionsAny(ToLower(fileName), IntermediateKeywords)
  {
    var low := ToLower(fileName);
    if MentionsAny(low, BeginnerKeywords) then Beginner
    else if MentionsAny(low, AdvancedKeywords) then Advanced
    else if MentionsAny(low, IntermediateKeywords) then Intermediate
    else Beginner
  }

  /** The keyword rules as a ranked list: the first rule whose keywords
      occur in the text names the category. */
  const KeywordRules: seq<(Category, seq<string>)> :=
    [(Beginner, BeginnerKeywords), (Advanced, AdvancedKeywords), (Intermediate, IntermediateKeywords)]

  function FirstRuleMatch(rules: seq<(Category, seq<string>)>, s: string): (r: Option<Category>)
    ensures r.Some? ==> exists i :: 0 <= i < |rules| && rules[i].0 == r.value && MentionsAny(s, rules[i].1)
                                 && forall j :: 0 <= j < i ==> !MentionsAny(s, rules[j].1)
    ensures r.None? <==> forall i :: 0 <= i < |rules| ==> !MentionsAny(s, rules[i].1)
  {
    if |rules| == 0 then None
    else if MentionsAny(s, rules[0].1) then Some(rules[0].0)
    else
      var r := FirstRuleMatch(rules[1..], s);
      assert forall i :: 1 <= i < |rules| ==> rules[i] == rules[1..][i - 1];
      r
  }

  /** Keyword detection is the first match of the ranked rule list, with
      beginner as the default. */
  lemma DetectCategoryIsFirstRuleMatch(fileName: string)
    ensures DetectCategory(fileName) ==
            match FirstRuleMatch(KeywordRules, ToLower(fileName))
            case Some(c) => c
            case None => Beginner
  {
    var low := ToLower(fileName);
    assert KeywordRules[0].1 == BeginnerKeywords;
    assert KeywordRules[1..][0].1 == AdvancedKeywords;
    assert KeywordRules[1..][1..][0].1 == IntermediateKeywords;
    assert KeywordRules[1..][1..][1..] == [];
  }

  // ---- Stage 2: "<category>-" prefix ----

  /** The category whose `<name>-` starts the stem, compared
      case-insensitively. At most one can, so the order in which the
      source tries them does not matter. */
  function PrefixCategory(stem: string): (r: Option<Category>)
    ensures forall c: Category :: r == Some(c) <==> StartsWith(ToLower(stem), c.Name() + "-")
  {
    var low := ToLower(stem);
    PrefixesExclusive(low);
    if StartsWith(low, "beginner-") then Some(Beginner)
    else if StartsWith(low, "intermediate-") then Some(Intermediate)
    else if StartsWith(low, "advanced-") then Some(Advanced)
    else None
  }

  /** The three category names begin with different letters, so no text
      starts with two of them, with or without a '-' after. */
  lemma PrefixesExclusive(s: string)
    ensures forall c: Category, d: Category :: StartsWith(s, c.Name()) && StartsWith(s, d.Name()) ==> c == d
    ensures forall c: Category, d: Category :: StartsWith(s, c.Name() + "-") && StartsWith(s, d.Name() + "-") ==> c == d
  {
    forall c: Category, d: Category | StartsWith(s, c.Name()) && StartsWith(s, d.Name())
      ensures c == d
    {
      assert s[0] == c.Name()[0] == d.Name()[0];
    }
    forall c: Category, d: Category | StartsWith(s, c.Name() + "-") && StartsWith(s, d.Name() + "-")
      ensures c == d
    {
      assert s[0] == (c.Name() + "-")[0] == (d.Name() + "-")[0];
    }
  }

  // ---- Stage 1: category folder ----

  /** The key lies in a folder whose first segment names a category,
      compared case-insensitively. */
  predicate InCategoryFolder(key: string) {
    '/' in key && exists c: Category :: ToLower(FirstSegment(key)) == c.Name()
  }

  /** A `<category>-` prefix on the stem, compared case-insensitively. */
  predicate HasCategoryPrefix(stem: string) {
    exists c: Category :: StartsWith(ToLower(stem), c.Name() + "-")
  }

  function FolderCategory(key: string): (r: Option<Category>)
    ensures r.Some? <==> InCategoryFolder(key)
    ensures r.Some? ==> ToLower(FirstSegment(key)) == r.value.Name()
    ensures forall c: Category :: '/' in key && ToLower(FirstSegment(key)) == c.Name() ==> r == Some(c)
  {
    if '/' in key then CategoryNamed(ToLower(FirstSegment(key))) else None
  }

  /** The rules for a key outside the category folders, applied to its
      stem: a `<category>-` prefix is cut off and decides the category,
      otherwise the keywords decide and the whole stem is kept. */
  function ParseStem(stem: string): (r: (Category, string))
    requires '/' !in stem
    ensures '/' !in r.1
    ensures EndsWith(stem, r.1)
    ensures forall c: Category ::
              StartsWith(ToLower(stem), c.Name() + "-") ==> r == (c, stem[|c.Name()| + 1..])
    ensures !HasCategoryPrefix(stem) ==> r == (DetectCategory(stem), stem)
  {
    match PrefixCategory(stem)
    case Some(c) =>
      var clean := stem[|c.Name()| + 1..];
      AbsentFromTail(stem, |c.Name()| + 1, '/');
      (c, clean)
    case None => (DetectCategory(stem), stem)
  }

  /** `parse_video_info(key)`: the category and the clean name. The clean
      name is always a tail of the key's stem and never holds a '/'. */
  function ParseVideoInfo(key: string): (r: (Category, string))
    ensures '/' !in r.1
    ensures EndsWith(KeyStem(key), r.1)
    ensures forall c: Category ::
              '/' in key && ToLower(FirstSegment(key)) == c.Name() ==> r == (c, KeyStem(key))
    ensures forall c: Category ::
              !InCategoryFolder(key) && StartsWith(ToLower(KeyStem(key)), c.Name() + "-") ==>
              r == (c, KeyStem(key)[|c.Name()| + 1..])
    ensures !InCategoryFolder(key) && !HasCategoryPrefix(KeyStem(key)) ==>
              r == (DetectCategory(KeyStem(key)), KeyStem(key))
  {
    match FolderCategory(key)
    case Some(c) => (c, KeyStem(key))
    case None => ParseStem(KeyStem(key))
  }

  // ---- Worked cases ----

  /** A category folder, matched without regard to case, decides the
      category; the clean name is the whole stem of the last segment. */
  lemma ParseFolderKey(dir: string, name: string, c: Category)
    requires '/' !in dir && '/' !in name && ToLower(dir) == c.Name()
    ensures ParseVideoInfo(dir + "/" + name) == (c, Stem(name))
  {
    var key := dir + "/" + name;
    FileNameAfterSlash(dir, name);
    FirstSegmentBeforeSlash(dir, name);
    assert key[|dir|] == '/';
  }

  /** A category name is its own lower-case form. */
  lemma NameIsLowerCase(c: Category)
    ensures ToLower(c.Name() + "-") == c.Name() + "-"
  {
    var n := c.Name() + "-";
    assert forall i :: 0 <= i < |n| ==> !IsUpper(n[i]);
  }

  /** A top-level key made of a `<category>-` prefix and an extension
      alone: the prefix takes the whole stem and the clean name is empty. */
  lemma ParsePrefixOnlyKey(c: Category, ext: string)
    requires |ext| > 0 && '.' !in ext && '/' !in ext
    ensures ParseVideoInfo(c.Name() + "-" + ("." + ext)) == (c, "")
  {
    var n := c.Name() + "-";
    var key := n + ("." + ext);
    assert '/' !in key && KeyStem(key) == n by {
      StemBeforeExtension(n, ext);
    }
    assert StartsWith(ToLower(KeyStem(key)), n) by {
      NameIsLowerCase(c);
    }
    assert !InCategoryFolder(key);
  }

  /** `beginner-.mp4` is a beginner video with an empty clean name. */
  lemma ParseBeginnerDash()
    ensures ParseVideoInfo("beginner-.mp4") == (Beginner, "")
  {
    ParsePrefixOnlyKey(Beginner, "mp4");
    assert Beginner.Name() + "-" + ("." + "mp4") == "beginner-.mp4";
  }

  /** A text in which some letter of `w` never occurs does not contain `w`. */
  lemma {:induction false} MissingLetterNotContained(s: string, w: string, c: char)
    requires c in w && c !in s
    ensures !Contains(s, w)
    decreases |s|
  {
    if |s| > 0 {
      MissingLetterNotContained(s[1..], w, c);
    }
  }

  /** A stem naming both a beginner and an advanced keyword is a beginner
      video: beginner keywords are tried first. */
  lemma DetectBeginnerBeforeAdvanced()
    ensures DetectCategory("intro_to_master") == Beginner
    ensures MentionsAny("intro_to_master", AdvancedKeywords)
  {
    assert ToLower("intro_to_master") == "intro_to_master";
    assert StartsWith("intro_to_master", "intro");
    assert "intro" in BeginnerKeywords;
    assert StartsWith("intro_to_master"[9..], "master");
    assert Contains("intro_to_master"[9..], "master");
    assert "master" in AdvancedKeywords;
    ContainsSuffix("intro_to_master", 9, "master");
  }

  /** Whatever a tail of `s` contains, `s` contains too. */
  lemma {:induction false} ContainsSuffix(s: string, i: nat, w: string)
    requires i <= |s| && Contains(s[i..], w)
    ensures Contains(s, w)
    decreases i
  {
    if i > 0 {
      assert s[1..][i - 1..] == s[i..];
      ContainsSuffix(s[1..], i - 1, w);
    }
  }

  /** A stem with no keyword at all defaults to beginner. */
  lemma DetectWithoutKeywords()
    ensures DetectCategory("holiday") == Beginner
    ensures !MentionsAny("holiday", AdvancedKeywords + IntermediateKeywords)
  {
    assert ToLower("holiday") == "holiday";
    forall k | k in AdvancedKeywords + IntermediateKeywords
      ensures !Contains("holiday", k)
    {
      if 'e' in k {
        MissingLetterNotContained("holiday", k, 'e');
      } else if 'n' in k {
        MissingLetterNotContained("holiday", k, 'n');
      } else if 'm' in k {
        MissingLetterNotContained("holiday", k, 'm');
      } else {
        MissingLetterNotContained("holiday", k, 'p');
      }
    }
  }
}

=== FILE: fields.dfy ===
/** The seventeen fields of a metadata record and the JSON keys they are
    written under. */
module RecordFields {
  datatype Field =
    | VideoId | Title | Description | Category | Duration | Thumbnail | VideoUrl | Transcript
    | Topics | Objectives | Prerequisites | Difficulty | Instructor | Created | Updated | Tags | Chapters
  {
    /** The key of the field in the JSON object. */
    function Key(): string {
      match this
      case VideoId => "video_id"
      case Title => "title"
      case Description => "description"
      case Category => "category"
      case Duration => "duration_seconds"
      case Thumbnail => "thumbnail_url"
      case VideoUrl => "video_url"
      case Transcript => "transcript"
      case Topics => "topics"
      case Objectives => "learning_objectives"
      case Prerequisites => "prerequisites"
      case Difficulty => "difficulty_level"
      case Instructor => "instructor"
      case Created => "created_date"
      case Updated => "updated_date"
      case Tags => "tags"
      case Chapters => "chapters"
    }
  }

  /** The fields in the order the record lists them. */
  const AllFields: seq<Field> :=
    [VideoId, Title, Description, Category, Duration, Thumbnail, VideoUrl, Transcript,
     Topics, Objectives, Prerequisites, Difficulty, Instructor, Created, Updated, Tags, Chapters]

  /** The keys of a record. */
  const RecordKeys: set<string> := set f | f in AllFields :: f.Key()

  lemma EveryFieldListed(f: Field)
    ensures f in AllFields
  {
    var i := match f
      case VideoId => 0 case Title => 1 case Description => 2 case Category => 3
      case Duration => 4 case Thumbnail => 5 case VideoUrl => 6 case Transcript => 7
      case Topics => 8 case Objectives => 9 case Prerequisites => 10 case Difficulty => 11
      case Instructor => 12 case Created => 13 case Updated => 14 case Tags => 15
      case Chapters => 16;
    assert AllFields[i] == f;
  }

  /** Different fields have different keys: the length and the first two
      characters of a key already tell the fields apart. */
  lemma KeyInjective(f: Field, g: Field)
    requires f.Key() == g.Key()
    ensures f == g
  {
    var kf, kg := f.Key(), g.Key();
    assert |kf| == |kg| && kf[0] == kg[0] && kf[1] == kg[1];
  }
}

=== FILE: inventory.dfy ===
/** The inventory scan (`list_existing_videos`): from a container listing,
    keep the keys outside the `metadata/` folder whose suffix, lower-cased,
    is a known video extension, and describe each one. The storage service
    is replaced by the listing it returns. */
module Inventory {
  import opened Text
  import opened Paths
  import opened Classifier

  /** One entry of a container listing. `url` is the public address of the
      key; it is computed outside this model and carried as given. */
  datatype Blob = Blob(name: string, size: int, url: string)

  /** The outcome of listing a container: all of its blobs, or the blobs
      delivered before the listing raised an error. */
  datatype Listing = Listed(blobs: seq<Blob>) | FailedAfter(delivered: seq<Blob>)

  /** One discovered video. */
  datatype VideoInfo = VideoInfo(
    blobName: string,
    fileName: string,
    cleanName: string,
    category: Category,
    size: int,
    url: string)

  /** The folder the generated records are written to. */
  const MetadataFolder: string := "metadata/"

  const VideoExtensions: set<string> := {".mp4", ".avi", ".mov", ".wmv", ".mkv", ".flv", ".webm"}

  /** Whether a key is scanned as a video. The folder test is
      case-sensitive; the extension test is not. */
  predicate IsVideoKey(key: string) {
    !StartsWith(key, MetadataFolder) && ToLower(Suffix(FileName(key))) in VideoExtensions
  }

  /** The record the scan builds for one video blob. */
  function Describe(b: Blob): (v: VideoInfo)
    ensures v.blobName == b.name && v.fileName == FileName(b.name)
    ensures (v.category, v.cleanName) == ParseVideoInfo(b.name)
    ensures v.size == b.size && v.url == b.url
  {
    var (category, clean) := ParseVideoInfo(b.name);
    VideoInfo(b.name, FileName(b.name), clean, category, b.size, b.url)
  }

  /** The blobs the scan keeps, in listing order. */
  function VideoBlobs(blobs: seq<Blob>): (r: seq<Blob>)
    ensures |r| <= |blobs|
    ensures forall b :: b in r <==> b in blobs && IsVideoKey(b.name)
  {
    if |blobs| == 0 then []
    else
      var rest := VideoBlobs(blobs[1..]);
      assert forall b :: b in blobs <==> b == blobs[0] || b in blobs[1..];
      if IsVideoKey(blobs[0].name) then [blobs[0]] + rest else rest
  }

  /** The scan over a complete listing: the kept blobs, each described. */
  function ScanVideos(blobs: seq<Blob>): (vs: seq<VideoInfo>)
    ensures |vs| == |VideoBlobs(blobs)| <= |blobs|
    ensures forall i :: 0 <= i < |vs| ==> vs[i] == Describe(VideoBlobs(blobs)[i])
  {
    var kept := VideoBlobs(blobs);
    seq(|kept|, i requires 0 <= i < |kept| => Describe(kept[i]))
  }

  /** The scan yields exactly the descriptions of the video blobs. */
  lemma ScanVideosMembers(blobs: seq<Blob>)
    ensures forall v :: v in ScanVideos(blobs) <==> exists b :: b in blobs && IsVideoKey(b.name) && v == Describe(b)
  {
    var vs := ScanVideos(blobs);
    var kept := VideoBlobs(blobs);
    forall v | v in vs
      ensures exists b :: b in blobs && IsVideoKey(b.name) && v == Describe(b)
    {
      var i :| 0 <= i < |vs| && vs[i] == v;
      assert kept[i] in kept;
    }
    forall b | b in blobs && IsVideoKey(b.name)
      ensures Describe(b) in vs
    {
      var i :| 0 <= i < |kept| && kept[i] == b;
      assert vs[i] == Describe(b);
    }
  }

  /** The scan keeps listing order: scanning two listings one after the
      other gives the two scans one after the other. */
  lemma {:induction false} ScanAppend(a: seq<Blob>, b: seq<Blob>)
    ensures ScanVideos(a + b) == ScanVideos(a) + ScanVideos(b)
  {
    VideoBlobsAppend(a, b);
    var ka, kb := VideoBlobs(a), VideoBlobs(b);
    assert VideoBlobs(a + b) == ka + kb;
    var l, r := ScanVideos(a + b), ScanVideos(a) + ScanVideos(b);
    assert |l| == |r|;
    forall i | 0 <= i < |l|
      ensures l[i] == r[i]
    {
      if i < |ka| {
        assert (ka + kb)[i] == ka[i];
      } else {
        assert (ka + kb)[i] == kb[i - |ka|];
      }
    }
  }

  lemma {:induction false} VideoBlobsAppend(a: seq<Blob>, b: seq<Blob>)
    ensures VideoBlobs(a + b) == VideoBlobs(a) + VideoBlobs(b)
  {
    if |a| == 0 {
      assert a + b == b;
    } else {
      assert (a + b)[1..] == a[1..] + b;
      VideoBlobsAppend(a[1..], b);
    }
  }

  /** Blobs inside the metadata folder never contribute a video. */
  lemma {:induction false} ScanSkipsMetadataFolder(blobs: seq<Blob>)
    requires forall i :: 0 <= i < |blobs| ==> StartsWith(blobs[i].name, MetadataFolder)
    ensures VideoBlobs(blobs) == [] && ScanVideos(blobs) == []
  {
    if |blobs| > 0 {
      ScanSkipsMetadataFolder(blobs[1..]);
    }
  }

  /** `list_existing_videos()`: a failed listing yields no videos at all,
      even if some blobs were delivered before the failure. */
  function ListExistingVideos(listing: Listing): (vs: seq<VideoInfo>)
    ensures listing.FailedAfter? ==> vs == []
    ensures listing.Listed? ==> vs == ScanVideos(listing.blobs)
    ensures forall i :: 0 <= i < |vs| ==>
              && !StartsWith(vs[i].blobName, MetadataFolder)
              && ToLower(Suffix(vs[i].fileName)) in VideoExtensions
              && '/' !in vs[i].cleanName
              && (vs[i].category, vs[i].cleanName) == ParseVideoInfo(vs[i].blobName)
  {
    match listing
    case Listed(blobs) =>
      var vs := ScanVideos(blobs);
      assert forall i :: 0 <= i < |vs| ==> VideoBlobs(blobs)[i] in VideoBlobs(blobs);
      vs
    case FailedAfter(_) => []
  }

  /** A key ending in `.txt` is not a video, whatever comes before. */
  lemma TextFileIsNotVideo(key: string)
    requires EndsWith(key, ".txt")
    ensures !IsVideoKey(key)
  {
    FileNameKeepsTail(key, ".txt");
    TxtNameSuffix(FileName(key));
    TxtIsNoVideoExtension(Suffix(FileName(key)));
  }

  /** A name ending in `.txt` has that suffix, or none for `.txt` itself. */
  lemma TxtNameSuffix(name: string)
    requires EndsWith(name, ".txt")
    ensures Suffix(name) == "" || Suffix(name) == ".txt"
  {
    assert '.' !in ".txt"[1..];
    SuffixOfDottedTail(name, ".txt");
  }

  /** Neither `.txt` nor the empty suffix is a video extension. */
  lemma TxtIsNoVideoExtension(sfx: string)
    requires sfx == "" || sfx == ".txt"
    ensures ToLower(sfx) !in VideoExtensions
  {
    if sfx == ".txt" {
      assert ToLower(".txt") == ".txt";
    }
  }

  /** An upper-case video extension is recognised. */
  lemma UpperCaseExtensionIsVideo()
    ensures IsVideoKey("Beginner/Intro.MP4")
  {
    var key := "Beginner/Intro.MP4";
    assert key[..9][0] != MetadataFolder[0];
    assert key[8] == '/';
    assert LastIndexOf(key, '/') == 8;
    assert FileName(key) == "Intro.MP4";
    assert "Intro.MP4"[5] == '.';
    assert LastIndexOf("Intro.MP4", '.') == 5;
    assert Suffix("Intro.MP4") == ".MP4";
    assert ToLower(".MP4") == ".mp4";
  }

  /** A video inside the metadata folder is still skipped. */
  lemma MetadataFolderVideoIsSkipped()
    ensures !IsVideoKey("metadata/intro.mp4")
  {
    assert StartsWith("metadata/intro.mp4", MetadataFolder);
  }
}

=== FILE: paths.dfy ===
/** The parts of Python's `pathlib.PurePath` the tool relies on, defined
    directly on '/'-separated storage keys: `name` is the text after the
    last '/', `suffix` is the part of the name from its last '.', and
    `stem` is the name without that suffix. As in `pathlib`, a dot that
    opens the name or closes it does not start a suffix. Repeated or
    trailing slashes are not normalised away. */
module Paths {
  import opened Text

  /** `s.rfind(c)`: the index of the last `c` in `s`, or -1. */
  function LastIndexOf(s: string, c: char): (i: int)
    ensures -1 <= i < |s|
    ensures i >= 0 ==> s[i] == c
    ensures forall j :: i < j < |s| ==> s[j] != c
    decreases |s|
  {
    if |s| == 0 then -1
    else if s[|s| - 1] == c then |s| - 1
    else LastIndexOf(s[..|s| - 1], c)
  }

  /** `s.find(c)`: the index of the first `c` in `s`, or -1. */
  function IndexOf(s: string, c: char): (i: int)
    ensures -1 <= i < |s|
    ensures i >= 0 ==> s[i] == c && forall j :: 0 <= j < i ==> s[j] != c
    ensures i < 0 ==> c !in s
    decreases |s|
  {
    if |s| == 0 then -1
    else if s[0] == c then 0
    else
      var k := IndexOf(s[1..], c);
      if k < 0 then -1 else k + 1
  }

  /** `PurePath(path).name`: the last '/'-separated segment. */
  function FileName(path: string): (r: string)
    ensures '/' !in r
    ensures EndsWith(path, r)
    ensures '/' !in path ==> r == path
  {
    path[LastIndexOf(path, '/') + 1..]
  }

  /** The file name is the whole last segment: either the path has no '/'
      or a '/' comes right before the name. */
  lemma FileNameIsLastSegment(path: string)
    ensures FileName(path) == path || EndsWith(path, "/" + FileName(path))
  {
  }

  /** A '/'-free tail of a key is also a tail of its file name. */
  lemma FileNameKeepsTail(key: string, t: string)
    requires EndsWith(key, t) && '/' !in t
    ensures EndsWith(FileName(key), t)
  {
    var n := |key| - |t|;
    var i := LastIndexOf(key, '/');
    assert i < n;
    TailOfTail(key, i + 1, n);
  }

  /** A later tail of a text is a tail of every earlier one. */
  lemma TailOfTail(s: string, k: nat, n: nat)
    requires k <= n <= |s|
    ensures EndsWith(s[k..], s[n..])
  {
    assert s[k..][n - k..] == s[n..];
  }

  /** `path.split('/')[0]`: the text before the first '/'. */
  function FirstSegment(path: string): (r: string)
    ensures '/' !in r
    ensures StartsWith(path, r)
    ensures '/' in path ==> path[|r|] == '/'
  {
    var i := IndexOf(path, '/');
    if i < 0 then path else path[..i]
  }

  /** Whether the name has a suffix: its last '.' is neither its first nor
      its last character. */
  predicate HasSuffix(name: string) {
    0 < LastIndexOf(name, '.') < |name| - 1
  }

  /** `PurePath(name).suffix`. */
  function Suffix(name: string): (r: string)
    ensures r == "" <==> !HasSuffix(name)
    ensures r != "" ==> |r| >= 2 && r[0] == '.' && '.' !in r[1..]
    ensures EndsWith(name, r)
  {
    if HasSuffix(name) then name[LastIndexOf(name, '.')..] else ""
  }

  /** A name ending in `d`, a '.' followed by a '.'-free extension, has
      the suffix `d`, or none when that '.' is its first character. */
  lemma SuffixOfDottedTail(name: string, d: string)
    requires |d| >= 2 && d[0] == '.' && '.' !in d[1..] && EndsWith(name, d)
    ensures Suffix(name) == "" || Suffix(name) == d
  {
    var m := |name| - |d|;
    assert forall j :: m < j < |name| ==> name[j] == d[1..][j - m - 1];
    assert LastIndexOf(name, '.') == m;
  }

  /** `PurePath(name).stem`. */
  function Stem(name: string): (r: string)
    ensures StartsWith(name, r)
    ensures |r| > 0 <==> |name| > 0
  {
    if HasSuffix(name) then name[..LastIndexOf(name, '.')] else name
  }

  /** Stem and suffix partition the name. */
  lemma StemSuffixSplit(name: string)
    ensures Stem(name) + Suffix(name) == name
  {
    if HasSuffix(name) {
      var i := LastIndexOf(name, '.');
      assert name[..i] + name[i..] == name;
    }
  }

  /** The stem of `metadata/<c>.json` is `c` again, provided `c` is a
      non-empty name without '/'. For the empty name the stem is ".json". */
  lemma {:induction false} StemOfMetadataPath(c: string)
    requires c != "" && '/' !in c
    ensures Stem(FileName("metadata/" + c + ".json")) == c
  {
    var name := c + ("." + "json");
    assert "metadata/" + c + ".json" == "metadata" + "/" + name;
    assert '/' !in name by {
      assert '/' !in "." + "json";
    }
    FileNameAfterSlash("metadata", name);
    StemBeforeExtension(c, "json");
  }

  /** `.json` on its own has no stem to strip. */
  lemma StemOfEmptyMetadataPath()
    ensures Stem(FileName("metadata/" + "" + ".json")) == ".json"
  {
    var p := "metadata/" + "" + ".json";
    assert p[8] == '/';
    assert forall j :: 8 < j < |p| ==> p[j] != '/';
    assert FileName(p) == ".json";
    assert ".json"[0] == '.';
    assert forall j :: 0 < j < 5 ==> ".json"[j] != '.';
    assert LastIndexOf(".json", '.') == 0;
  }

  /** The name of `dir/name` is `name` when `name` holds no '/'. */
  lemma FileNameAfterSlash(dir: string, name: string)
    requires '/' !in name
    ensures FileName(dir + "/" + name) == name
  {
    var p := dir + "/" + name;
    assert p[|dir|] == '/';
    assert forall j :: |dir| < j < |p| ==> p[j] == name[j - |dir| - 1];
    assert LastIndexOf(p, '/') == |dir|;
    assert p[|dir| + 1..] == name;
  }

  /** The first segment of `dir/rest` is `dir` when `dir` holds no '/'. */
  lemma FirstSegmentBeforeSlash(dir: string, rest: string)
    requires '/' !in dir
    ensures FirstSegment(dir + "/" + rest) == dir
  {
    var p := dir + "/" + rest;
    assert p[|dir|] == '/';
    assert forall j :: 0 <= j < |dir| ==> p[j] == dir[j];
    assert IndexOf(p, '/') == |dir|;
    assert p[..|dir|] == dir;
  }

  /** A key ending in `.json` has a non-empty last segment, hence a
      non-empty stem. */
  lemma JsonKeyStemNonEmpty(key: string)
    requires EndsWith(key, ".json")
    ensures Stem(FileName(key)) != ""
  {
    assert key[|key| - 1] == ".json"[4];
    assert LastIndexOf(key, '/') < |key| - 1;
  }

  /** A '/'-free name followed by one '.' and a '.'-free extension: the
      name is the stem and the rest is the suffix. */
  lemma StemBeforeExtension(n: string, ext: string)
    requires |n| > 0 && '/' !in n
    requires |ext| > 0 && '.' !in ext && '/' !in ext
    ensures FileName(n + ("." + ext)) == n + ("." + ext)
    ensures Stem(n + ("." + ext)) == n
    ensures Suffix(n + ("." + ext)) == "." + ext
  {
    var d := "." + ext;
    var key := n + d;
    assert FileName(key) == key by {
      assert '/' !in d;
    }
    assert LastIndexOf(key, '.') == |n| by {
      assert forall j :: |n| < j < |key| ==> key[j] == ext[j - |n| - 1];
      assert key[|n|] == '.';
    }
    assert key[..|n|] == n;
    assert key[|n|..] == d;
  }
}

=== FILE: synthesis.dfy ===
/** Synthesis of one metadata record from a discovered video
    (`create_metadata` and the generators it calls). Everything here is a
    pure function of the video and the caller's override fields. */
module Synthesis {
  import opened Wrappers
  import opened Text
  import opened Classifier
  import opened Inventory
  import opened Title
  import F = RecordFields

  // ---- Duration estimate ----

  const MiB: int := 1048576
  const MinDuration: int := 300
  const MaxDuration: int := 7200
  /** The assumed playing time of one MiB of video, in seconds. */
  const SecondsPerMiB: int := 8

  /** `estimate_duration(size)`: eight seconds per whole MiB, clamped to
      [300, 7200]. For a positive divisor Dafny's `/` rounds down exactly
      like Python's `//`, negative sizes included. The lower bound is hit
      exactly below 38 MiB and the upper bound exactly from 900 MiB on. */
  function EstimateDuration(size: int): (d: int)
    ensures MinDuration <= d <= MaxDuration
    ensures MinDuration <= size / MiB * SecondsPerMiB <= MaxDuration ==> d == size / MiB * SecondsPerMiB
    ensures d == MinDuration <==> size < 38 * MiB
    ensures d == MaxDuration <==> size >= 900 * MiB
  {
    var raw := size / MiB * SecondsPerMiB;
    if raw < MinDuration then MinDuration
    else if raw > MaxDuration then MaxDuration
    else raw
  }

  /** A larger file never gets a shorter estimate. */
  lemma EstimateDurationMonotone(a: int, b: int)
    requires a <= b
    ensures EstimateDuration(a) <= EstimateDuration(b)
  {
    DivMonotone(a, b);
  }

  lemma DivMonotone(a: int, b: int)
    requires a <= b
    ensures a / MiB <= b / MiB
  {
    var qa, ra := a / MiB, a % MiB;
    var qb, rb := b / MiB, b % MiB;
    assert a == MiB * qa + ra && 0 <= ra < MiB;
    assert b == MiB * qb + rb && 0 <= rb < MiB;
    assert MiB * (qa - qb) < MiB;
  }

  lemma EstimateDurationCases()
    ensures EstimateDuration(0) == MinDuration
    ensures EstimateDuration(100 * MiB) == 800
    ensures EstimateDuration(900 * MiB) == MaxDuration
  {
  }

  // ---- Topics and tags ----

  /** Every word lower-cased, in order. */
  function LowerAll(ws: seq<string>): (r: seq<string>)
    ensures |r| == |ws|
    ensures forall i :: 0 <= i < |ws| ==> r[i] == ToLower(ws[i])
  {
    seq(|ws|, i requires 0 <= i < |ws| => ToLower(ws[i]))
  }

  /** A kept title word: longer than three characters, free of whitespace
      and with no upper-case letter. */
  predicate LowerLongWord(w: string) {
    |w| > 3 && IsWord(w) && forall j :: 0 <= j < |w| ==> !IsUpper(w[j])
  }

  /** `[w.lower() for w in words if len(w) > 3]`. */
  function LongWordsLower(ws: seq<string>): (r: seq<string>)
    requires forall m :: 0 <= m < |ws| ==> IsWord(ws[m])
    ensures |r| <= |ws|
    ensures forall k :: 0 <= k < |r| ==> LowerLongWord(r[k])
    ensures forall k :: 0 <= k < |r| ==> r[k] in LowerAll(ws)
    ensures forall k :: 0 <= k < |ws| && |ws[k]| > 3 ==> ToLower(ws[k]) in r
  {
    if |ws| == 0 then []
    else
      var rest := LongWordsLower(ws[1..]);
      var r := if |ws[0]| > 3 then [ToLower(ws[0])] + rest else rest;
      LongWordsCons(ws, rest, r);
      r
  }

  /** The step of the filter: what holds of the kept words of the tail
      holds of the kept words of the whole list. */
  lemma LongWordsCons(ws: seq<string>, rest: seq<string>, r: seq<string>)
    requires |ws| > 0 && forall m :: 0 <= m < |ws| ==> IsWord(ws[m])
    requires |rest| <= |ws| - 1
    requires forall k :: 0 <= k < |rest| ==> LowerLongWord(rest[k]) && rest[k] in LowerAll(ws[1..])
    requires forall k :: 0 <= k < |ws[1..]| && |ws[1..][k]| > 3 ==> ToLower(ws[1..][k]) in rest
    requires r == if |ws[0]| > 3 then [ToLower(ws[0])] + rest else rest
    ensures |r| <= |ws|
    ensures forall k :: 0 <= k < |r| ==> LowerLongWord(r[k])
    ensures forall k :: 0 <= k < |r| ==> r[k] in LowerAll(ws)
    ensures forall k :: 0 <= k < |ws| && |ws[k]| > 3 ==> ToLower(ws[k]) in r
  {
    assert LowerAll(ws) == [ToLower(ws[0])] + LowerAll(ws[1..]);
    assert forall k :: 1 <= k < |ws| ==> ws[k] == ws[1..][k - 1];
    if |ws[0]| > 3 {
      LowerOfLongWord(ws[0]);
    }
  }

  /** A long word, lower-cased, is a kept title word. */
  lemma LowerOfLongWord(w: string)
    requires IsWord(w) && |w| > 3
    ensures LowerLongWord(ToLower(w))
  {
    var low := ToLower(w);
    forall j | 0 <= j < |low|
      ensures !IsSpace(low[j]) && !IsUpper(low[j])
    {
      LowerCharKeepsSpace(w[j]);
    }
  }

  /** The long words are kept in the order of the title: a word added at
      the end adds its lower-cased form at the end exactly when it is
      longer than three characters. */
  lemma {:induction false} LongWordsAppend(ws: seq<string>, w: string)
    requires forall m :: 0 <= m < |ws| ==> IsWord(ws[m])
    requires IsWord(w)
    ensures LongWordsLower(ws + [w]) == LongWordsLower(ws) + (if |w| > 3 then [ToLower(w)] else [])
    decreases |ws|
  {
    if |ws| == 0 {
      assert ws + [w] == [w];
      assert [w][1..] == [];
    } else {
      assert (ws + [w])[0] == ws[0];
      assert (ws + [w])[1..] == ws[1..] + [w];
      LongWordsAppend(ws[1..], w);
    }
  }

  lemma LowerCharKeepsSpace(c: char)
    ensures IsSpace(LowerChar(c)) <==> IsSpace(c)
  {
  }

  /** The title words a topic or tag may be made from: the first three
      words longer than three characters, lower-cased. */
  function TitleKeywords(title: string): (r: seq<string>)
    ensures |r| <= 3
    ensures forall k :: 0 <= k < |r| ==> |r[k]| > 3 && IsWord(r[k])
    ensures forall k, j :: 0 <= k < |r| && 0 <= j < |r[k]| ==> !IsUpper(r[k][j])
    ensures forall k :: 0 <= k < |r| ==> r[k] in LowerAll(Words(title))
    ensures var long := LongWordsLower(Words(title));
            && |r| == (if |long| < 3 then |long| else 3)
            && forall k :: 0 <= k < |r| ==> r[k] == long[k]
  {
    var long := LongWordsLower(Words(title));
    if |long| <= 3 then long
    else
      assert forall k :: 0 <= k < 3 ==> long[..3][k] == long[k];
      long[..3]
  }

  const SeedTopics: set<string> := {"training", "tutorial"}

  /** The distinct elements of a sequence are no more than its length. */
  lemma {:induction false} SetOfSeqSize(s: seq<string>)
    ensures |set x | x in s| <= |s|
  {
    if |s| > 0 {
      SetOfSeqSize(s[1..]);
      assert (set x | x in s) == (set x | x in s[1..]) + {s[0]};
    }
  }

  /** `generate_topics_from_title(title)` as a set: the two seed topics
      plus at most three lower-case title words longer than three
      characters, the first three such words all included. */
  function Topics(title: string): (r: set<string>)
    ensures SeedTopics <= r
    ensures |r - SeedTopics| <= 3
    ensures forall t :: t in r && t !in SeedTopics ==> |t| > 3 && t in LowerAll(Words(title))
    ensures forall t :: t in r && t !in SeedTopics ==> t in TitleKeywords(title)
    ensures forall k :: 0 <= k < |TitleKeywords(title)| ==> TitleKeywords(title)[k] in r
  {
    var keys := TitleKeywords(title);
    var fromTitle := KeywordSet(keys);
    assert SeedTopics + fromTitle - SeedTopics <= fromTitle;
    LemmaSubsetSize(SeedTopics + fromTitle - SeedTopics, fromTitle);
    forall t | t in fromTitle
      ensures |t| > 3 && t in LowerAll(Words(title))
    {
      var k :| 0 <= k < |keys| && keys[k] == t;
    }
    SeedTopics + fromTitle
  }
  /** For a title joined from words, the keywords are the first three long
      words, lower-cased, and the topics are the seed topics plus those. */
  lemma TopicsOfJoinedWords(ws: seq<string>)
    requires forall k :: 0 <= k < |ws| ==> IsWord(ws[k])
    ensures var long := LongWordsLower(ws);
            TitleKeywords(Join(ws)) == (if |long| <= 3 then long else long[..3])
    ensures Topics(Join(ws)) == SeedTopics + set t | t in TitleKeywords(Join(ws))
  {
    var title := Join(ws);
    var kw := TitleKeywords(title);
    assert Topics(title) == SeedTopics + set t | t in kw by {
      forall t ensures t in Topics(title) <==> t in SeedTopics || t in kw {
        if t in kw {
          var k :| 0 <= k < |kw| && kw[k] == t;
        }
      }
    }
    WordsOfJoin(ws);
    var long := LongWordsLower(ws);
    if |long| > 3 {
      assert kw == long[..3];
    }
  }


  /** The elements of a keyword list, as a set no larger than the list. */
  function KeywordSet(keys: seq<string>): (r: set<string>)
    ensures forall t :: t in r <==> t in keys
    ensures |r| <= |keys|
  {
    SetOfSeqSize(keys);
    set k | k in keys
  }

  lemma LemmaSubsetSize(a: set<string>, b: set<string>)
    requires a <= b
    ensures |a| <= |b|
  {
    assert b == a + (b - a);
  }

  /** `generate_tags(title, category)` as a set: the topics of the title
      plus the category. */
  function Tags(title: string, category: string): (r: set<string>)
    ensures r == Topics(title) + {category}
    ensures forall t :: t in r <==> t in SeedTopics || t == category || t in TitleKeywords(title)
    ensures |r| <= 6
  {
    var topics := Topics(title);
    assert |topics| <= 5 by {
      assert topics == SeedTopics + (topics - SeedTopics);
    }
    topics + {category}
  }

  // ---- Static tables keyed by the category name ----

  /** `generate_learning_objectives(title, category)`: three objectives,
      the first naming the lower-cased title. A name that is not a known
      category gets the beginner objectives. */
  function LearningObjectives(title: string, category: string): (r: seq<string>)
    ensures |r| == 3
    ensures EndsWith(r[0], ToLower(title))
    ensures category == "intermediate" ==>
              r[0] == IntermediateOpening + ToLower(title) && r[1..] == IntermediateObjectives
    ensures category == "advanced" ==>
              r[0] == AdvancedOpening + ToLower(title) && r[1..] == AdvancedObjectives
    ensures category != "intermediate" && category != "advanced" ==>
              r[0] == BeginnerOpening + ToLower(title) && r[1..] == BeginnerObjectives
  {
    var t := ToLower(title);
    if category == "intermediate" then [IntermediateOpening + t] + IntermediateObjectives
    else if category == "advanced" then [AdvancedOpening + t] + AdvancedObjectives
    else [BeginnerOpening + t] + BeginnerObjectives
  }

  /** The opening of the first objective, per tier; the lower-cased title
      follows it. */
  const BeginnerOpening := "Understand the fundamentals of "
  const IntermediateOpening := "Master intermediate techniques in "
  const AdvancedOpening := "Achieve expert-level proficiency in "

  /** The objectives after the first, per tier. */
  const BeginnerObjectives: seq<string> :=
    ["Apply basic concepts in practical scenarios", "Identify key principles and best practices"]
  const IntermediateObjectives: seq<string> :=
    ["Analyze complex scenarios and develop solutions", "Integrate concepts with existing knowledge"]
  const AdvancedObjectives: seq<string> :=
    ["Develop innovative approaches and strategies", "Lead implementation and mentor others"]

  /** Any name other than intermediate and advanced reads the beginner
      objectives, and the three tiers have three different tables. */
  lemma LearningObjectivesLookup(title: string, category: string)
    ensures category != "intermediate" && category != "advanced" ==>
              LearningObjectives(title, category) == LearningObjectives(title, "beginner")
    ensures LearningObjectives(title, "beginner")[1] != LearningObjectives(title, "intermediate")[1]
    ensures LearningObjectives(title, "beginner")[1] != LearningObjectives(title, "advanced")[1]
    ensures LearningObjectives(title, "intermediate")[1] != LearningObjectives(title, "advanced")[1]
  {
    assert LearningObjectives(title, "beginner")[1] == BeginnerObjectives[0];
    assert LearningObjectives(title, "intermediate")[1] == IntermediateObjectives[0];
    assert LearningObjectives(title, "advanced")[1] == AdvancedObjectives[0];
    assert |BeginnerObjectives[0]| == 43;
    assert |IntermediateObjectives[0]| == 47;
    assert |AdvancedObjectives[0]| == 44;
  }

  /** `generate_prerequisites(category)`: none for beginners or unknown
      names, two for intermediate, three for advanced. */
  function Prerequisites(category: string): (r: seq<string>)
    ensures category == "intermediate" ==> r == IntermediatePrerequisites && |r| == 2
    ensures category == "advanced" ==> r == AdvancedPrerequisites && |r| == 3
    ensures category != "intermediate" && category != "advanced" ==> r == []
  {
    if category == "intermediate" then IntermediatePrerequisites
    else if category == "advanced" then AdvancedPrerequisites
    else []
  }

  /** The prerequisite tables of the two upper tiers. */
  const IntermediatePrerequisites: seq<string> :=
    ["Basic understanding of core concepts", "Completion of beginner-level training"]
  const AdvancedPrerequisites: seq<string> :=
    ["Intermediate certification", "Practical experience", "Strong foundational knowledge"]

  /** One chapter of the fixed outline; times are in seconds. */
  datatype Chapter = Chapter(title: string, startTime: int, endTime: int, description: string)

  /** Four chapters that start at 0 and follow each other without gap or
      overlap, each with a positive length. */
  predicate ValidOutline(chs: seq<Chapter>) {
    && |chs| == 4
    && chs[0].startTime == 0
    && (forall i :: 0 <= i < |chs| ==> chs[i].startTime < chs[i].endTime)
    && (forall i :: 0 <= i < |chs| - 1 ==> chs[i].endTime == chs[i + 1].startTime)
  }

  /** Chapter `i` has title `titles[i]`, description `descriptions[i]`
      and ends at `ends[i]`, for each of the four chapters. */
  predicate FollowsTable(chs: seq<Chapter>, titles: seq<string>, descriptions: seq<string>, ends: seq<int>)
    requires |titles| == 4 && |descriptions| == 4 && |ends| == 4
  {
    && |chs| == 4
    && forall i :: 0 <= i < 4 ==>
         chs[i].title == titles[i] && chs[i].description == descriptions[i] && chs[i].endTime == ends[i]
  }

  /** Four chapters with the given titles and descriptions, cut at the
      given increasing end times, the first starting at 0. */
  function Outline(titles: seq<string>, descriptions: seq<string>, ends: seq<int>): (r: seq<Chapter>)
    requires |titles| == 4 && |descriptions| == 4 && |ends| == 4
    requires 0 < ends[0] < ends[1] < ends[2] < ends[3]
    ensures ValidOutline(r)
    ensures FollowsTable(r, titles, descriptions, ends)
  {
    seq(4, i requires 0 <= i < 4 =>
      Chapter(titles[i], if i == 0 then 0 else ends[i - 1], ends[i], descriptions[i]))
  }

  /** The chapter titles, descriptions and end times of each tier. Only
      the beginner outline's first description names the title. */
  const BeginnerTitles: seq<string> :=
    ["Course Introduction", "Basic Concepts", "Practical Examples", "Practice & Summary"]
  function BeginnerDescriptions(title: string): seq<string> {
    ["Welcome and overview of " + title, "Fundamental principles and concepts",
     "Step-by-step examples and demonstrations", "Practice exercises and key takeaways"]
  }
  const BeginnerEnds: seq<int> := [180, 900, 1200, 1500]
  const IntermediateTitles: seq<string> :=
    ["Review & Setup", "Advanced Concepts", "Case Studies", "Best Practices"]
  const IntermediateDescriptions: seq<string> :=
    ["Prerequisites review and setup", "Intermediate-level concepts and techniques",
     "Real-world applications and case studies", "Industry best practices and next steps"]
  const IntermediateEnds: seq<int> := [300, 1000, 1400, 1800]
  const AdvancedTitles: seq<string> :=
    ["Expert Overview", "Deep Dive Analysis", "Advanced Techniques", "Innovation & Leadership"]
  const AdvancedDescriptions: seq<string> :=
    ["Advanced concepts overview", "In-depth technical analysis",
     "Expert-level techniques and strategies", "Innovation approaches and leadership aspects"]
  const AdvancedEnds: seq<int> := [240, 1080, 1560, 1800]

  /** `generate_chapters(title, category)`: a valid four-chapter outline
      that ends by 30 minutes, following the table of the category's tier.
      Names other than beginner and intermediate get the advanced table. */
  function Chapters(title: string, category: string): (r: seq<Chapter>)
    ensures ValidOutline(r)
    ensures r[3].endTime <= 1800
    ensures category == "beginner" ==>
              FollowsTable(r, BeginnerTitles, BeginnerDescriptions(title), BeginnerEnds)
              && r[0].description == "Welcome and overview of " + title
    ensures category == "intermediate" ==>
              FollowsTable(r, IntermediateTitles, IntermediateDescriptions, IntermediateEnds)
    ensures category != "beginner" && category != "intermediate" ==>
              FollowsTable(r, AdvancedTitles, AdvancedDescriptions, AdvancedEnds)
  {
    if category == "beginner" then
      Outline(BeginnerTitles, BeginnerDescriptions(title), BeginnerEnds)
    else if category == "intermediate" then
      Outline(IntermediateTitles, IntermediateDescriptions, IntermediateEnds)
    else
      Outline(AdvancedTitles, AdvancedDescriptions, AdvancedEnds)
  }

  /** Any name other than beginner and intermediate reads the advanced
      outline. */
  lemma ChaptersFallback(title: string, category: string)
    ensures category != "beginner" && category != "intermediate" ==>
              Chapters(title, category) == Chapters(title, "advanced")
  {
  }

  /** In a valid outline the chapters start in strictly increasing order
      and each starts where all earlier ones together end. */
  lemma {:induction false} OutlineIsOrdered(chs: seq<Chapter>)
    requires ValidOutline(chs)
    ensures forall i, j :: 0 <= i < j < |chs| ==> chs[i].startTime < chs[j].startTime
    ensures forall i, j :: 0 <= i < j < |chs| ==> chs[i].endTime <= chs[j].startTime
  {
    forall i, j | 0 <= i < j < |chs|
      ensures chs[i].endTime <= chs[j].startTime
    {
      var k := i;
      while k < j - 1
        invariant i <= k <= j - 1
        invariant chs[i].endTime <= chs[k + 1].startTime
      {
        assert chs[k + 1].endTime == chs[k + 2].startTime;
        k := k + 1;
      }
    }
  }

  // ---- The record ----

  /** `clean_name.lower()` with spaces and underscores turned into '-'. */
  function Slug(name: string): (r: string)
    ensures |r| == |name|
    ensures forall i :: 0 <= i < |r| ==> r[i] != ' ' && r[i] != '_' && !IsUpper(r[i])
    ensures forall i :: 0 <= i < |r| ==> (name[i] == ' ' || name[i] == '_' ==> r[i] == '-')
    ensures forall i :: 0 <= i < |r| ==> (name[i] != ' ' && name[i] != '_' ==> r[i] == LowerChar(name[i]))
  {
    seq(|name|, i requires 0 <= i < |name| =>
      if name[i] == ' ' || name[i] == '_' then '-' else LowerChar(name[i]))
  }

  /** `video_id`: the category name, '-', and the slug of the clean name. */
  function VideoId(category: Category, cleanName: string): string {
    category.Name() + "-" + Slug(cleanName)
  }

  /** A JSON value as written to storage. `JStrSet` is a JSON array of
      strings whose order is not determined. */
  datatype Json =
    | JNull
    | JBool(b: bool)
    | JInt(n: int)
    | JStr(s: string)
    | JArr(items: seq<Json>)
    | JStrSet(members: set<string>)
    | JObj(fields: map<string, Json>)

  /** The synthesised record before override fields are merged. */
  datatype Metadata = Metadata(
    videoId: string,
    title: string,
    description: string,
    category: string,
    durationSeconds: int,
    thumbnailUrl: string,
    videoUrl: string,
    transcript: string,
    topics: set<string>,
    learningObjectives: seq<string>,
    prerequisites: seq<string>,
    difficultyLevel: string,
    instructor: string,
    createdDate: string,
    updatedDate: string,
    tags: set<string>,
    chapters: seq<Chapter>)

  const FixedDate: string := "2024-10-21T00:00:00Z"

  /** The base record of one video. Both category fields hold the
      category's name, the id carries the category and the slug of the
      clean name, and every generated part keeps its own guarantees. */
  function Synthesize(video: VideoInfo): (m: Metadata)
    ensures m.category == video.category.Name() && m.difficultyLevel == video.category.Name()
    ensures m.videoId == video.category.Name() + "-" + Slug(video.cleanName)
    ensures m.title == CleanTitle(video.cleanName) && |m.title| > 0
    ensures m.durationSeconds == EstimateDuration(video.size)
    ensures MinDuration <= m.durationSeconds <= MaxDuration
    ensures m.topics == Topics(m.title) && m.tags == Tags(m.title, m.category)
    ensures m.tags == m.topics + {m.category}
    ensures SeedTopics <= m.topics
    ensures m.learningObjectives == LearningObjectives(m.title, m.category) && |m.learningObjectives| == 3
    ensures m.prerequisites == Prerequisites(m.category)
    ensures m.chapters == Chapters(m.title, m.category) && ValidOutline(m.chapters)
    ensures m.videoUrl == video.url && m.thumbnailUrl == ""
    ensures m.description == "Training video: " + m.title + " - " + Capitalize(m.category)
                             + " level content for comprehensive learning"
    ensures m.transcript == "Training content covering " + ToLower(m.title) + ". This " + m.category
                            + "-level course provides comprehensive instruction on the topic."
    ensures m.instructor == "Training Expert" && m.createdDate == FixedDate && m.updatedDate == FixedDate
  {
    var category := video.category.Name();
    var title := CleanTitle(video.cleanName);
    Metadata(
      VideoId(video.category, video.cleanName),
      title,
      "Training video: " + title + " - " + Capitalize(category) + " level content for comprehensive learning",
      category,
      EstimateDuration(video.size),
      "",
      video.url,
      "Training content covering " + ToLower(title) + ". This " + category
        + "-level course provides comprehensive instruction on the topic.",
      Topics(title),
      LearningObjectives(title, category),
      Prerequisites(category),
      category,
      "Training Expert",
      FixedDate,
      FixedDate,
      Tags(title, category),
      Chapters(title, category))
  }

  function ChapterJson(ch: Chapter): Json {
    JObj(map[
      "title" := JStr(ch.title),
      "start_time" := JInt(ch.startTime),
      "end_time" := JInt(ch.endTime),
      "description" := JStr(ch.description)])
  }

  function ChaptersJson(chs: seq<Chapter>): (r: Json)
    ensures r.JArr? && |r.items| == |chs|
    ensures forall i :: 0 <= i < |chs| ==> r.items[i] == ChapterJson(chs[i])
  {
    JArr(seq(|chs|, i requires 0 <= i < |chs| => ChapterJson(chs[i])))
  }

  function StringsJson(ss: seq<string>): (r: Json)
    ensures r.JArr? && |r.items| == |ss|
    ensures forall i :: 0 <= i < |ss| ==> r.items[i] == JStr(ss[i])
  {
    JArr(seq(|ss|, i requires 0 <= i < |ss| => JStr(ss[i])))
  }

  /** The value each field of the record holds, as the record's dict
      literal sets it. */
  function FieldValue(m: Metadata, f: F.Field): Json {
    match f
    case VideoId => JStr(m.videoId)
    case Title => JStr(m.title)
    case Description => JStr(m.description)
    case Category => JStr(m.category)
    case Duration => JInt(m.durationSeconds)
    case Thumbnail => JStr(m.thumbnailUrl)
    case VideoUrl => JStr(m.videoUrl)
    case Transcript => JStr(m.transcript)
    case Topics => JStrSet(m.topics)
    case Objectives => StringsJson(m.learningObjectives)
    case Prerequisites => StringsJson(m.prerequisites)
    case Difficulty => JStr(m.difficultyLevel)
    case Instructor => JStr(m.instructor)
    case Created => JStr(m.createdDate)
    case Updated => JStr(m.updatedDate)
    case Tags => JStrSet(m.tags)
    case Chapters => ChaptersJson(m.chapters)
  }

  /** The fields of `fs`, each under its key, later fields last. */
  function FieldMap(m: Metadata, fs: seq<F.Field>): map<string, Json> {
    if |fs| == 0 then map[]
    else FieldMap(m, fs[..|fs| - 1])[fs[|fs| - 1].Key() := FieldValue(m, fs[|fs| - 1])]
  }

  lemma {:induction false} FieldMapLookup(m: Metadata, fs: seq<F.Field>, f: F.Field)
    requires f in fs
    ensures f.Key() in FieldMap(m, fs) && FieldMap(m, fs)[f.Key()] == FieldValue(m, f)
  {
    var last := fs[|fs| - 1];
    if f != last {
      assert f in fs[..|fs| - 1] by {
        var i :| 0 <= i < |fs| && fs[i] == f;
        assert fs[..|fs| - 1][i] == f;
      }
      FieldMapLookup(m, fs[..|fs| - 1], f);
      if f.Key() == last.Key() {
        F.KeyInjective(f, last);
      }
    }
  }

  lemma {:induction false} FieldMapKeys(m: Metadata, fs: seq<F.Field>)
    ensures FieldMap(m, fs).Keys == set f | f in fs :: f.Key()
  {
    if |fs| > 0 {
      FieldMapKeys(m, fs[..|fs| - 1]);
      assert forall f :: f in fs <==> f in fs[..|fs| - 1] || f == fs[|fs| - 1];
    }
  }

  /** The record as the JSON object written to storage: exactly the
      seventeen keys, each holding its field's value. */
  function Fields(m: Metadata): (r: map<string, Json>)
    ensures r.Keys == F.RecordKeys
    ensures forall f: F.Field :: f.Key() in r && r[f.Key()] == FieldValue(m, f)
  {
    FieldMapKeys(m, F.AllFields);
    forall f: F.Field
      ensures f.Key() in FieldMap(m, F.AllFields) && FieldMap(m, F.AllFields)[f.Key()] == FieldValue(m, f)
    {
      F.EveryFieldListed(f);
      FieldMapLookup(m, F.AllFields, f);
    }
    FieldMap(m, F.AllFields)
  }

  /** The four fields `create_metadata` reads back by name. */
  lemma FieldsByName(m: Metadata)
    ensures "category" in Fields(m) && Fields(m)["category"] == JStr(m.category)
    ensures "difficulty_level" in Fields(m) && Fields(m)["difficulty_level"] == JStr(m.difficultyLevel)
    ensures "video_id" in Fields(m) && Fields(m)["video_id"] == JStr(m.videoId)
    ensures "duration_seconds" in Fields(m) && Fields(m)["duration_seconds"] == JInt(m.durationSeconds)
  {
    assert F.Field.Category.Key() == "category" && F.Field.Difficulty.Key() == "difficulty_level";
    assert F.Field.VideoId.Key() == "video_id" && F.Field.Duration.Key() == "duration_seconds";
    var x := Fields(m);
    assert x[F.Field.Category.Key()] == FieldValue(m, F.Field.Category);
    assert x[F.Field.Difficulty.Key()] == FieldValue(m, F.Field.Difficulty);
    assert x[F.Field.VideoId.Key()] == FieldValue(m, F.Field.VideoId);
    assert x[F.Field.Duration.Key()] == FieldValue(m, F.Field.Duration);
  }

  /** `create_metadata(video, custom)`: the synthesised record with the
      override fields merged last. Each override key replaces the whole
      value; every other key keeps its synthesised value. */
  function CreateMetadata(video: VideoInfo, custom: map<string, Json>): (r: map<string, Json>)
    ensures r.Keys == F.RecordKeys + custom.Keys
    ensures forall k :: k in custom ==> r[k] == custom[k]
    ensures forall k :: k in F.RecordKeys && k !in custom ==> r[k] == Fields(Synthesize(video))[k]
    ensures "category" in r && "difficulty_level" in r && "video_id" in r && "duration_seconds" in r
    ensures "category" !in custom ==> r["category"] == JStr(video.category.Name())
    ensures "difficulty_level" !in custom ==> r["difficulty_level"] == JStr(video.category.Name())
    ensures "video_id" !in custom ==> r["video_id"] == JStr(video.category.Name() + "-" + Slug(video.cleanName))
    ensures "duration_seconds" !in custom ==>
              r["duration_seconds"].JInt? && MinDuration <= r["duration_seconds"].n <= MaxDuration
  {
    var m := Synthesize(video);
    FieldsByName(m);
    Fields(m) + custom
  }
}

=== FILE: text.dfy ===
/** ASCII text primitives behind the filename heuristics: character classes,
    case mapping, prefix and substring tests, and whitespace splitting and
    joining as Python's `str.split()` and `' '.join(...)` do them.
    Case mapping is restricted to the ASCII letters; every other character
    is left unchanged. */
module Text {

  predicate IsUpper(c: char) { 'A' <= c <= 'Z' }

  predicate IsLower(c: char) { 'a' <= c <= 'z' }

  predicate IsLetter(c: char) { IsUpper(c) || IsLower(c) }

  predicate IsDigit(c: char) { '0' <= c <= '9' }

  /** Python's `str.isspace()` on the ASCII range: TAB to CR, the four
      information separators and the space itself. */
  predicate IsSpace(c: char) {
    (9 <= c as int <= 13) || (28 <= c as int <= 32)
  }

  function LowerChar(c: char): (r: char)
    ensures !IsUpper(r)
    ensures IsLetter(r) <==> IsLetter(c)
    ensures !IsUpper(c) ==> r == c
  {
    if IsUpper(c) then (c as int + 32) as char else c
  }

  function UpperChar(c: char): (r: char)
    ensures !IsLower(r)
    ensures IsLetter(r) <==> IsLetter(c)
    ensures !IsLower(c) ==> r == c
  {
    if IsLower(c) then (c as int - 32) as char else c
  }

  /** `s.lower()`: the same length, every letter in lower case. */
  function ToLower(s: string): (r: string)
    ensures |r| == |s|
    ensures forall i :: 0 <= i < |s| ==> r[i] == LowerChar(s[i])
  {
    seq(|s|, i requires 0 <= i < |s| => LowerChar(s[i]))
  }

  predicate StartsWith(s: string, prefix: string) {
    |prefix| <= |s| && s[..|prefix|] == prefix
  }

  predicate EndsWith(s: string, suffix: string) {
    |suffix| <= |s| && s[|s| - |suffix|..] == suffix
  }

  /** A character missing from a text is missing from each of its tails. */
  lemma AbsentFromTail(s: string, k: nat, ch: char)
    requires k <= |s| && ch !in s
    ensures ch !in s[k..]
  {
    assert forall i :: 0 <= i < |s| - k ==> s[k..][i] == s[i + k];
  }

  /** Python's `w in s` on strings: `w` occurs as a contiguous part of `s`. */
  predicate Contains(s: string, w: string)
    decreases |s|
  {
    StartsWith(s, w) || (|s| > 0 && Contains(s[1..], w))
  }

  /** A word of `str.split()`: non-empty and free of whitespace. */
  predicate IsWord(w: string) {
    |w| > 0 && forall i :: 0 <= i < |w| ==> !IsSpace(w[i])
  }

  /** Length of the run of non-whitespace characters that starts `s`. */
  function WordLength(s: string): (n: nat)
    ensures n <= |s|
    ensures forall i :: 0 <= i < n ==> !IsSpace(s[i])
    ensures n < |s| ==> IsSpace(s[n])
    decreases |s|
  {
    if |s| == 0 || IsSpace(s[0]) then 0 else 1 + WordLength(s[1..])
  }

  /** `s.split()`: the maximal whitespace-free runs of `s`, in order. Every
      word is a non-empty run made of characters of `s`. */
  function Words(s: string): (r: seq<string>)
    ensures forall k :: 0 <= k < |r| ==> IsWord(r[k])
    ensures forall k, j :: 0 <= k < |r| && 0 <= j < |r[k]| ==> r[k][j] in s
    decreases |s|
  {
    if |s| == 0 then []
    else if IsSpace(s[0]) then
      var rest := Words(s[1..]);
      assert forall k, j :: 0 <= k < |rest| && 0 <= j < |rest[k]| ==> rest[k][j] in s by {
        forall k, j | 0 <= k < |rest| && 0 <= j < |rest[k]|
          ensures rest[k][j] in s
        {
          var x :| 0 <= x < |s[1..]| && s[1..][x] == rest[k][j];
          assert s[x + 1] == rest[k][j];
        }
      }
      rest
    else
      var n := WordLength(s);
      var rest := Words(s[n..]);
      assert forall k, j :: 0 <= k < |rest| && 0 <= j < |rest[k]| ==> rest[k][j] in s by {
        forall k, j | 0 <= k < |rest| && 0 <= j < |rest[k]|
          ensures rest[k][j] in s
        {
          var x :| 0 <= x < |s[n..]| && s[n..][x] == rest[k][j];
          assert s[x + n] == rest[k][j];
        }
      }
      [s[..n]] + rest
  }

  /** `' '.join(ws)`. */
  function Join(ws: seq<string>): string
  {
    if |ws| == 0 then ""
    else if |ws| == 1 then ws[0]
    else ws[0] + " " + Join(ws[1..])
  }

  /** Every whitespace character of `s` is a plain space with a
      non-whitespace character on either side: no leading, trailing or
      doubled spaces and no other whitespace. */
  predicate SingleSpaced(s: string) {
    forall i :: 0 <= i < |s| && IsSpace(s[i]) ==>
      s[i] == ' ' && 0 < i < |s| - 1 && !IsSpace(s[i - 1]) && !IsSpace(s[i + 1])
  }

  /** Joining words yields a single-spaced text that starts and ends with a
      word character, built only from the words' characters and spaces. */
  lemma {:induction false} JoinShape(ws: seq<string>)
    requires forall k :: 0 <= k < |ws| ==> IsWord(ws[k])
    ensures |ws| > 0 ==> |Join(ws)| > 0 && !IsSpace(Join(ws)[0]) && !IsSpace(Join(ws)[|Join(ws)| - 1])
    ensures |ws| == 0 ==> Join(ws) == ""
    ensures SingleSpaced(Join(ws))
    ensures forall i :: 0 <= i < |Join(ws)| ==>
              Join(ws)[i] == ' ' || exists k :: 0 <= k < |ws| && Join(ws)[i] in ws[k]
  {
    if |ws| == 1 {
      assert Join(ws) == ws[0];
      forall i | 0 <= i < |Join(ws)|
        ensures Join(ws)[i] in ws[0]
      {
      }
    } else if |ws| > 1 {
      JoinShape(ws[1..]);
      assert Join(ws) == ws[0] + " " + Join(ws[1..]);
      SpacedStep(ws[0], Join(ws[1..]));
      JoinCharsStep(ws);
    }
  }

  /** A word, a space and a single-spaced text without outer whitespace
      make a single-spaced text without outer whitespace. */
  lemma SpacedStep(w: string, tail: string)
    requires IsWord(w) && SingleSpaced(tail)
    requires |tail| > 0 && !IsSpace(tail[0]) && !IsSpace(tail[|tail| - 1])
    ensures SingleSpaced(w + " " + tail)
    ensures !IsSpace((w + " " + tail)[0]) && !IsSpace((w + " " + tail)[|w + " " + tail| - 1])
  {
    var j := w + " " + tail;
    assert j[|w|] == ' ';
    forall i | 0 <= i < |j| && IsSpace(j[i])
      ensures j[i] == ' ' && 0 < i < |j| - 1 && !IsSpace(j[i - 1]) && !IsSpace(j[i + 1])
    {
      if i > |w| {
        assert j[i] == tail[i - |w| - 1];
        if i - |w| - 1 > 0 {
          assert j[i - 1] == tail[i - |w| - 2];
        }
        assert j[i + 1] == tail[i - |w|];
      }
    }
    assert j[0] == w[0];
    assert j[|j| - 1] == tail[|tail| - 1];
  }

  /** The characters of a join of two or more words come from the words,
      given that the join of the tail is built that way. */
  lemma JoinCharsStep(ws: seq<string>)
    requires |ws| > 1
    requires forall i :: 0 <= i < |Join(ws[1..])| ==>
               Join(ws[1..])[i] == ' ' || exists k :: 0 <= k < |ws[1..]| && Join(ws[1..])[i] in ws[1..][k]
    ensures forall i :: 0 <= i < |Join(ws)| ==>
              Join(ws)[i] == ' ' || exists k :: 0 <= k < |ws| && Join(ws)[i] in ws[k]
  {
    var w := ws[0];
    var tail := Join(ws[1..]);
    assert Join(ws) == w + " " + tail;
    forall i | 0 <= i < |w + " " + tail|
      ensures (w + " " + tail)[i] == ' ' || exists k :: 0 <= k < |ws| && (w + " " + tail)[i] in ws[k]
    {
      SpacedPairAt(w, tail, i);
      var ch := (w + " " + tail)[i];
      if i < |w| {
        assert ch in ws[0];
      } else if i > |w| && ch != ' ' {
        var m := i - |w| - 1;
        var k :| 0 <= k < |ws[1..]| && tail[m] in ws[1..][k];
        assert ws[1..][k] == ws[k + 1];
        assert ch in ws[k + 1];
      }
    }
  }

  /** The character at position `i` of `w + " " + tail` comes from `w`, is
      the space between, or comes from `tail`. */
  lemma SpacedPairAt(w: string, tail: string, i: nat)
    requires i < |w| + 1 + |tail|
    ensures i < |w| ==> (w + " " + tail)[i] == w[i] && (w + " " + tail)[i] in w
    ensures i == |w| ==> (w + " " + tail)[i] == ' '
    ensures i > |w| ==> (w + " " + tail)[i] == tail[i - |w| - 1]
  {
  }

  /** Splitting a join of words gives the words back. */
  lemma {:induction false} WordsOfJoin(ws: seq<string>)
    requires forall k :: 0 <= k < |ws| ==> IsWord(ws[k])
    ensures Words(Join(ws)) == ws
  {
    if |ws| == 1 {
      WordsOfWord(ws[0], "");
      assert ws[0] + "" == ws[0];
    } else if |ws| > 1 {
      var w := ws[0];
      var tail := Join(ws[1..]);
      WordsOfJoin(ws[1..]);
      WordsAfterWord(w, tail);
      assert Join(ws) == w + " " + tail;
      assert [w] + ws[1..] == ws;
    }
  }

  /** A word and a space split off the word, whatever follows. */
  lemma WordsAfterWord(w: string, t: string)
    requires IsWord(w)
    ensures Words(w + " " + t) == [w] + Words(t)
  {
    WordsOfWord(w, " " + t);
    WordsAfterSpace(t);
    ConcatAssoc(w, " ", t);
  }

  /** Concatenation of texts is associative. */
  lemma ConcatAssoc(a: string, b: string, c: string)
    ensures a + b + c == a + (b + c)
  {
  }

  /** A leading space adds no word. */
  lemma WordsAfterSpace(t: string)
    ensures Words(" " + t) == Words(t)
  {
    assert (" " + t)[1..] == t;
  }

  /** Any leading whitespace character adds no word. */
  lemma WordsAfterWhitespace(c: char, t: string)
    requires IsSpace(c)
    ensures Words([c] + t) == Words(t)
  {
    assert ([c] + t)[1..] == t;
  }

  /** The converse of `WordsOfJoin`: a single-spaced text is the join of
      its own words. */
  lemma {:induction false} JoinOfWords(s: string)
    requires SingleSpaced(s)
    ensures Join(Words(s)) == s
    decreases |s|
  {
    if |s| > 0 {
      var n := WordLength(s);
      FirstWordOfSpaced(s);
      var w := s[..n];
      assert IsWord(w);
      if n == |s| {
        WordsOfWord(w, "");
        assert w + "" == s;
      } else {
        var t := s[n + 1..];
        SingleSpacedTail(s, n + 1);
        JoinOfWords(t);
        assert s == w + " " + t;
        JoinStep(w, t);
      }
    }
  }

  /** In a non-empty single-spaced text the first word is non-empty, and
      when it does not reach the end it is followed by one space and
      another non-whitespace character. */
  lemma FirstWordOfSpaced(s: string)
    requires SingleSpaced(s) && |s| > 0
    ensures 0 < WordLength(s)
    ensures WordLength(s) < |s| ==>
              s[WordLength(s)] == ' ' && WordLength(s) + 1 < |s| && !IsSpace(s[WordLength(s) + 1])
  {
  }

  /** A word, a space and a non-empty text that starts with no whitespace
      and is the join of its words: the whole is the join of its words. */
  lemma JoinStep(w: string, t: string)
    requires IsWord(w) && |t| > 0 && !IsSpace(t[0])
    requires Join(Words(t)) == t
    ensures Join(Words(w + " " + t)) == w + " " + t
  {
    WordsOfWord(w, " " + t);
    WordsAfterSpace(t);
    assert w + " " + t == w + (" " + t);
    var rest := Words(t);
    assert rest == [t[..WordLength(t)]] + Words(t[WordLength(t)..]);
    var ws := [w] + rest;
    assert ws[1..] == rest;
  }

  /** The part of a single-spaced text after a space is single-spaced. */
  lemma SingleSpacedTail(s: string, k: nat)
    requires SingleSpaced(s) && 0 < k < |s| && s[k - 1] == ' '
    ensures SingleSpaced(s[k..])
  {
    var t := s[k..];
    forall i | 0 <= i < |t| && IsSpace(t[i])
      ensures t[i] == ' ' && 0 < i < |t| - 1 && !IsSpace(t[i - 1]) && !IsSpace(t[i + 1])
    {
      assert t[i] == s[i + k];
      assert !IsSpace(s[k]);
      assert i > 0;
      assert t[i - 1] == s[i + k - 1];
      assert t[i + 1] == s[i + k + 1];
    }
  }

  /** A word followed by text that is empty or starts with whitespace splits
      off as the first word. */
  lemma WordsOfWord(w: string, rest: string)
    requires IsWord(w)
    requires |rest| == 0 || IsSpace(rest[0])
    ensures Words(w + rest) == [w] + Words(rest)
  {
    var s := w + rest;
    var n := WordLength(s);
    assert forall i :: 0 <= i < |w| ==> s[i] == w[i];
    assert |rest| > 0 ==> s[|w|] == rest[0];
    assert n == |w|;
    assert s[..n] == w;
    assert s[n..] == rest;
  }

  /** `w.capitalize()`: first letter upper case, the rest lower case. Only
      letters change; every other character stays where it was. */
  function Capitalize(w: string): (r: string)
    ensures |r| == |w|
    ensures forall i :: 0 <= i < |w| ==> r[i] == w[i] || (IsLetter(w[i]) && IsLetter(r[i]))
    ensures |w| > 0 ==> !IsLower(r[0]) && r[0] == UpperChar(w[0])
    ensures forall i :: 0 < i < |w| ==> !IsUpper(r[i]) && r[i] == LowerChar(w[i])
  {
    if |w| == 0 then "" else [UpperChar(w[0])] + ToLower(w[1..])
  }
}

=== FILE: title.dfy ===
/** The title cleaner (`clean_filename_for_title`). In order it removes a
    leading category word together with one '-' or '_' after it, turns
    every run of '-' and '_' into one space, deletes the digits, and joins
    the remaining words capitalised, with "Training Video" for a name that
    leaves no word behind. */
module Title {
  import opened Text
  import opened Classifier

  predicate IsSeparator(c: char) { c == '-' || c == '_' }

  /** A character that may appear in a cleaned title. */
  predicate IsTitleChar(c: char) { !IsDigit(c) && !IsSeparator(c) }

  function DropSeparator(s: string): (r: string)
    ensures EndsWith(s, r)
    ensures |s| > 0 && IsSeparator(s[0]) ==> r == s[1..]
    ensures !(|s| > 0 && IsSeparator(s[0])) ==> r == s
  {
    if |s| > 0 && IsSeparator(s[0]) then s[1..] else s
  }

  /** Step 1: a leading `beginner`, `intermediate` or `advanced`, in any
      case and even when more letters follow, is removed with at most one
      separator after it. */
  function StripCategoryPrefix(s: string): (r: string)
    ensures EndsWith(s, r)
    ensures forall c: Category :: StartsWith(ToLower(s), c.Name()) ==> r == DropSeparator(s[|c.Name()|..])
    ensures (forall c: Category :: !StartsWith(ToLower(s), c.Name())) ==> r == s
  {
    var low := ToLower(s);
    PrefixesExclusive(low);
    if StartsWith(low, Beginner.Name()) then DropSeparator(s[|Beginner.Name()|..])
    else if StartsWith(low, Intermediate.Name()) then DropSeparator(s[|Intermediate.Name()|..])
    else if StartsWith(low, Advanced.Name()) then DropSeparator(s[|Advanced.Name()|..])
    else s
  }

  /** Step 2: each maximal run of separators becomes a single space. */
  function CollapseSeparators(s: string): (r: string)
    ensures forall i :: 0 <= i < |r| ==> !IsSeparator(r[i])
    ensures forall c :: c in r && c != ' ' ==> c in s
    ensures (forall i :: 0 <= i < |s| ==> !IsSeparator(s[i])) ==> r == s
    ensures |s| > 0 && IsSeparator(s[0]) ==> |r| > 0 && r[0] == ' '
    decreases |s|
  {
    if |s| == 0 then ""
    else
      var rest := CollapseSeparators(s[1..]);
      assert forall c :: c in s[1..] ==> c in s;
      if !IsSeparator(s[0]) then [s[0]] + rest
      else if |s| > 1 && IsSeparator(s[1]) then rest
      else " " + rest
  }

  /** A single separator between two separator-free texts becomes one
      space. */
  lemma {:induction false} CollapseOneSeparator(a: string, sep: char, b: string)
    requires IsSeparator(sep)
    requires forall i :: 0 <= i < |a| ==> !IsSeparator(a[i])
    requires forall i :: 0 <= i < |b| ==> !IsSeparator(b[i])
    ensures CollapseSeparators(a + [sep] + b) == a + " " + b
  {
    var s := a + [sep] + b;
    if |a| == 0 {
      assert s == [sep] + b;
      CollapseLeadingSeparator(sep, b);
      assert a + " " + b == " " + b;
    } else {
      KeepFirstCharacter(s);
      assert s[1..] == a[1..] + [sep] + b;
      CollapseOneSeparator(a[1..], sep, b);
      assert a + " " + b == [a[0]] + (a[1..] + " " + b);
    }
  }

  /** A lone separator in front of a separator-free text becomes a space. */
  lemma CollapseLeadingSeparator(sep: char, b: string)
    requires IsSeparator(sep)
    requires forall i :: 0 <= i < |b| ==> !IsSeparator(b[i])
    ensures CollapseSeparators([sep] + b) == " " + b
  {
    var s := [sep] + b;
    assert s[1..] == b;
    if |b| > 0 {
      assert s[1] == b[0];
    }
  }

  /** A character that is not a separator is kept in front. */
  lemma KeepFirstCharacter(s: string)
    requires |s| > 0 && !IsSeparator(s[0])
    ensures CollapseSeparators(s) == [s[0]] + CollapseSeparators(s[1..])
  {
  }

  /** Collapsing works piece by piece, as long as the cut does not split a
      run of separators. */
  lemma {:induction false} CollapseAppend(a: string, b: string)
    requires !(|a| > 0 && |b| > 0 && IsSeparator(a[|a| - 1]) && IsSeparator(b[0]))
    ensures CollapseSeparators(a + b) == CollapseSeparators(a) + CollapseSeparators(b)
    decreases |a|
  {
    if |a| == 0 {
      assert a + b == b;
    } else {
      var s := a + b;
      assert s[1..] == a[1..] + b;
      assert s[0] == a[0];
      if |a| > 1 {
        assert s[1] == a[1];
        assert a[1..][|a[1..]| - 1] == a[|a| - 1];
      } else if |b| > 0 {
        assert s[1] == b[0];
      }
      CollapseAppend(a[1..], b);
    }
  }

  /** A whole run of separators, however long, becomes one space. */
  lemma {:induction false} CollapseRun(run: string)
    requires |run| > 0 && forall i :: 0 <= i < |run| ==> IsSeparator(run[i])
    ensures CollapseSeparators(run) == " "
    decreases |run|
  {
    if |run| > 1 {
      CollapseRun(run[1..]);
    } else {
      assert run[1..] == "";
    }
  }

  /** Step 3: every digit is deleted; all other characters stay. */
  function RemoveDigits(s: string): (r: string)
    ensures forall c :: c in r <==> c in s && !IsDigit(c)
    ensures (forall i :: 0 <= i < |s| ==> !IsDigit(s[i])) ==> r == s
    ensures |r| <= |s|
    decreases |s|
  {
    if |s| == 0 then ""
    else
      var rest := RemoveDigits(s[1..]);
      assert forall c :: c in s <==> c == s[0] || c in s[1..];
      if IsDigit(s[0]) then rest else [s[0]] + rest
  }

  /** Digits after a digit-free text are dropped and the text is kept. */
  lemma {:induction false} RemoveTrailingDigits(a: string, d: string)
    requires forall i :: 0 <= i < |a| ==> !IsDigit(a[i])
    requires forall i :: 0 <= i < |d| ==> IsDigit(d[i])
    ensures RemoveDigits(a + d) == a
  {
    if |a| == 0 {
      AllDigitsRemoved(d);
      assert a + d == d;
    } else {
      assert (a + d)[1..] == a[1..] + d;
      RemoveTrailingDigits(a[1..], d);
      assert a == [a[0]] + a[1..];
    }
  }

  /** Deleting digits works piece by piece, so the kept characters stay
      in order. */
  lemma {:induction false} RemoveDigitsAppend(a: string, b: string)
    ensures RemoveDigits(a + b) == RemoveDigits(a) + RemoveDigits(b)
    decreases |a|
  {
    if |a| == 0 {
      assert a + b == b;
    } else {
      assert (a + b)[1..] == a[1..] + b;
      assert (a + b)[0] == a[0];
      RemoveDigitsAppend(a[1..], b);
    }
  }

  /** A run of digits is deleted entirely. */
  lemma {:induction false} AllDigitsRemoved(d: string)
    requires forall i :: 0 <= i < |d| ==> IsDigit(d[i])
    ensures RemoveDigits(d) == ""
  {
    if |d| > 0 {
      AllDigitsRemoved(d[1..]);
    }
  }

  /** The words left once steps 1 to 3 are done. */
  function TitleWords(name: string): seq<string> {
    Words(RemoveDigits(CollapseSeparators(StripCategoryPrefix(name))))
  }

  function CapitalizeAll(ws: seq<string>): (r: seq<string>)
    ensures |r| == |ws|
    ensures forall k :: 0 <= k < |ws| ==> r[k] == Capitalize(ws[k])
  {
    seq(|ws|, k requires 0 <= k < |ws| => Capitalize(ws[k]))
  }

  const FallbackTitle: string := "Training Video"

  /** `clean_filename_for_title(name)`: never empty, free of digits and
      separators, single-spaced, and made of the capitalised words left by
      the first three steps; with no such word it is "Training Video". */
  function CleanTitle(name: string): (r: string)
    ensures |r| > 0
    ensures forall i :: 0 <= i < |r| ==> IsTitleChar(r[i])
    ensures SingleSpaced(r)
    ensures TitleWords(name) == [] ==> r == FallbackTitle
    ensures TitleWords(name) != [] ==> Words(r) == CapitalizeAll(TitleWords(name))
  {
    var words := TitleWords(name);
    TitleWordsAreClean(name);
    var joined := Join(CapitalizeAll(words));
    JoinedTitleShape(words);
    if |joined| == 0 then
      FallbackTitleShape();
      FallbackTitle
    else joined
  }

  /** The capitalised words of steps 1 to 3, joined, are a clean
      single-spaced text that splits back into those words. */
  lemma JoinedTitleShape(words: seq<string>)
    requires forall k :: 0 <= k < |words| ==> IsWord(words[k])
    requires forall k, j :: 0 <= k < |words| && 0 <= j < |words[k]| ==> IsTitleChar(words[k][j])
    ensures var joined := Join(CapitalizeAll(words));
      && (|joined| == 0 <==> words == [])
      && SingleSpaced(joined)
      && (forall i :: 0 <= i < |joined| ==> IsTitleChar(joined[i]))
      && Words(joined) == CapitalizeAll(words)
  {
    var caps := CapitalizeAll(words);
    CapitalizeKeepsClean(words);
    JoinShape(caps);
    WordsOfJoin(caps);
    JoinedCharsClean(words);
  }

  /** Every character of the joined capitalised words is a space or a
      character of some word, so none is a digit or a separator. */
  lemma JoinedCharsClean(words: seq<string>)
    requires forall k :: 0 <= k < |words| ==> IsWord(words[k])
    requires forall k, j :: 0 <= k < |words| && 0 <= j < |words[k]| ==> IsTitleChar(words[k][j])
    ensures forall i :: 0 <= i < |Join(CapitalizeAll(words))| ==> IsTitleChar(Join(CapitalizeAll(words))[i])
  {
    var caps := CapitalizeAll(words);
    var joined := Join(caps);
    CapitalizeKeepsClean(words);
    JoinShape(caps);
    forall i | 0 <= i < |joined|
      ensures IsTitleChar(joined[i])
    {
      if joined[i] != ' ' {
        var k :| 0 <= k < |caps| && joined[i] in caps[k];
        var j :| 0 <= j < |caps[k]| && caps[k][j] == joined[i];
        assert IsTitleChar(caps[k][j]);
      }
    }
  }

  lemma FallbackTitleShape()
    ensures SingleSpaced(FallbackTitle)
    ensures forall i :: 0 <= i < |FallbackTitle| ==> IsTitleChar(FallbackTitle[i])
  {
    assert Letters("Training") && Letters("Video");
    assert FallbackTitle == "Training" + " " + "Video";
    LettersAroundSpace("Training", "Video");
  }

  /** Two letter runs around one space form a single-spaced clean text. */
  lemma LettersAroundSpace(a: string, b: string)
    requires Letters(a) && Letters(b)
    ensures SingleSpaced(a + " " + b)
    ensures forall i :: 0 <= i < |a + " " + b| ==> IsTitleChar((a + " " + b)[i])
  {
    var t := a + " " + b;
    forall i | 0 <= i < |t|
      ensures IsTitleChar(t[i])
      ensures IsSpace(t[i]) ==> i == |a|
    {
      if i < |a| {
        assert t[i] == a[i];
      } else if i > |a| {
        assert t[i] == b[i - |a| - 1];
      }
    }
  }

  /** The words of steps 1 to 3 contain no digit and no separator. */
  lemma TitleWordsAreClean(name: string)
    ensures forall k, j :: 0 <= k < |TitleWords(name)| && 0 <= j < |TitleWords(name)[k]| ==>
              IsTitleChar(TitleWords(name)[k][j])
  {
    var collapsed := CollapseSeparators(StripCategoryPrefix(name));
    var plain := RemoveDigits(collapsed);
    assert forall c :: c in collapsed ==> !IsSeparator(c);
    assert forall c :: c in plain ==> IsTitleChar(c);
  }

  /** Capitalising keeps words words and keeps them clean. */
  lemma CapitalizeKeepsClean(ws: seq<string>)
    requires forall k :: 0 <= k < |ws| ==> IsWord(ws[k])
    requires forall k, j :: 0 <= k < |ws| && 0 <= j < |ws[k]| ==> IsTitleChar(ws[k][j])
    ensures forall k :: 0 <= k < |ws| ==> IsWord(CapitalizeAll(ws)[k])
    ensures forall k, j :: 0 <= k < |ws| && 0 <= j < |ws[k]| ==> IsTitleChar(CapitalizeAll(ws)[k][j])
  {
    var caps := CapitalizeAll(ws);
    forall k, j | 0 <= k < |ws| && 0 <= j < |ws[k]|
      ensures !IsSpace(caps[k][j]) && IsTitleChar(caps[k][j])
    {
      assert caps[k] == Capitalize(ws[k]);
      assert !IsSpace(ws[k][j]);
    }
  }

  // ---- Shapes of names ----

  /** A non-empty run of ASCII letters. */
  predicate Letters(w: string) {
    |w| > 0 && forall i :: 0 <= i < |w| ==> IsLetter(w[i])
  }

  /** Two letter runs around one separator come out of steps 2 and 3 as
      those two words. */
  lemma TwoWordsSurvive(a: string, sep: char, b: string)
    requires Letters(a) && Letters(b) && IsSeparator(sep)
    ensures Words(RemoveDigits(CollapseSeparators(a + [sep] + b))) == [a, b]
  {
    CollapseOneSeparator(a, sep, b);
    LettersKeepDigitFree(a, b);
    WordsOfTwo(a, b);
  }

  /** Two letter runs and a space hold no digit for step 3 to delete. */
  lemma LettersKeepDigitFree(a: string, b: string)
    requires Letters(a) && Letters(b)
    ensures RemoveDigits(a + " " + b) == a + " " + b
  {
    var spaced := a + " " + b;
    assert forall i :: 0 <= i < |spaced| ==> !IsDigit(spaced[i]);
  }

  /** Two letter runs joined by a space split into those two words. */
  lemma WordsOfTwo(a: string, b: string)
    requires Letters(a) && Letters(b)
    ensures Words(a + " " + b) == [a, b]
  {
    assert Join([a, b]) == a + " " + b by {
      assert Join([a, b][1..]) == b;
    }
    WordsOfJoin([a, b]);
  }

  /** Two words capitalised and joined. */
  lemma JoinTwoCapitalized(a: string, b: string)
    ensures Join(CapitalizeAll([a, b])) == Capitalize(a) + " " + Capitalize(b)
  {
    var caps := CapitalizeAll([a, b]);
    assert caps == [Capitalize(a), Capitalize(b)];
    assert Join(caps[1..]) == Capitalize(b);
  }

  /** `<a>-<b>` with no category word in front becomes the two words,
      capitalised and joined by one space. */
  lemma CleanTitleOfTwoWords(a: string, sep: char, b: string)
    requires Letters(a) && Letters(b) && IsSeparator(sep)
    requires forall c: Category :: !StartsWith(ToLower(a + [sep] + b), c.Name())
    ensures CleanTitle(a + [sep] + b) == Capitalize(a) + " " + Capitalize(b)
  {
    var name := a + [sep] + b;
    assert TitleWords(name) == [a, b] by {
      assert StripCategoryPrefix(name) == name;
      TwoWordsSurvive(a, sep, b);
    }
    CleanTitleFromWords(name, [a, b]);
    JoinTwoCapitalized(a, b);
  }

  /** The title of a name whose steps 1 to 3 leave some words. */
  lemma CleanTitleFromWords(name: string, ws: seq<string>)
    requires TitleWords(name) == ws && ws != []
    ensures CleanTitle(name) == Join(CapitalizeAll(ws))
  {
    TitleWordsAreClean(name);
    JoinedTitleShape(ws);
  }

  /** A category word is stripped even when more letters follow it, so
      those letters become a word of their own: `beginners-guide` is
      titled "S Guide". */
  lemma CleanTitleOfGluedCategory(prefix: string, c: Category, a: string, sep: char, b: string)
    requires ToLower(prefix) == c.Name()
    requires Letters(a) && Letters(b) && IsSeparator(sep)
    ensures CleanTitle(prefix + (a + [sep] + b)) == Capitalize(a) + " " + Capitalize(b)
  {
    var name := prefix + (a + [sep] + b);
    GluedTitleWords(prefix, c, a, sep, b);
    CleanTitleFromWords(name, [a, b]);
    JoinTwoCapitalized(a, b);
  }

  lemma GluedTitleWords(prefix: string, c: Category, a: string, sep: char, b: string)
    requires ToLower(prefix) == c.Name()
    requires Letters(a) && Letters(b) && IsSeparator(sep)
    ensures TitleWords(prefix + (a + [sep] + b)) == [a, b]
  {
    var tail := a + [sep] + b;
    StripLeadingCategory(prefix, c, tail);
    assert DropSeparator(tail) == tail;
    TwoWordsSurvive(a, sep, b);
  }

  /** A category word, a topic word and a number, separated: only the
      topic word is left, capitalised. `Beginner_python_101` is titled
      "Python". */
  lemma CleanTitleOfCategoryWordNumber(prefix: string, c: Category, s1: char, w: string, s2: char, d: string)
    requires ToLower(prefix) == c.Name()
    requires IsSeparator(s1) && IsSeparator(s2) && Letters(w)
    requires forall i :: 0 <= i < |d| ==> IsDigit(d[i])
    ensures CleanTitle(prefix + [s1] + w + [s2] + d) == Capitalize(w)
  {
    var name := prefix + [s1] + w + [s2] + d;
    var tail := w + [s2] + d;
    assert TitleWords(name) == [w] by {
      assert name == prefix + ([s1] + tail);
      StripLeadingCategory(prefix, c, [s1] + tail);
      assert ([s1] + tail)[1..] == tail;
      WordAndNumberSurvive(w, s2, d);
    }
    CleanTitleFromWords(name, [w]);
    assert CapitalizeAll([w]) == [Capitalize(w)];
  }

  /** Step 1 on a name that starts with a category word in any case: the
      word goes, then at most one separator. */
  lemma StripLeadingCategory(prefix: string, c: Category, rest: string)
    requires ToLower(prefix) == c.Name()
    ensures StripCategoryPrefix(prefix + rest) == DropSeparator(rest)
  {
    var name := prefix + rest;
    assert ToLower(name)[..|prefix|] == ToLower(prefix);
    assert StartsWith(ToLower(name), c.Name());
    assert name[|c.Name()|..] == rest;
  }

  /** A letter run, a separator and a number come out of steps 2 and 3 as
      the one word. */
  lemma WordAndNumberSurvive(w: string, sep: char, d: string)
    requires Letters(w) && IsSeparator(sep)
    requires forall i :: 0 <= i < |d| ==> IsDigit(d[i])
    ensures Words(RemoveDigits(CollapseSeparators(w + [sep] + d))) == [w]
  {
    CollapseWordNumber(w, sep, d);
    DigitsAfterWord(w, d);
    WordThenSpace(w);
  }

  lemma CollapseWordNumber(w: string, sep: char, d: string)
    requires Letters(w) && IsSeparator(sep)
    requires forall i :: 0 <= i < |d| ==> IsDigit(d[i])
    ensures CollapseSeparators(w + [sep] + d) == (w + " ") + d
  {
    CollapseOneSeparator(w, sep, d);
    assert w + " " + d == (w + " ") + d;
  }

  lemma DigitsAfterWord(w: string, d: string)
    requires Letters(w)
    requires forall i :: 0 <= i < |d| ==> IsDigit(d[i])
    ensures RemoveDigits((w + " ") + d) == w + " "
  {
    var kept := w + " ";
    assert forall i :: 0 <= i < |kept| ==> !IsDigit(kept[i]);
    RemoveTrailingDigits(kept, d);
  }

  lemma WordThenSpace(w: string)
    requires Letters(w)
    ensures Words(w + " ") == [w]
  {
    WordsOfWord(w, " ");
    assert Words(" ") == [];
  }

  /** An empty name falls back to the default title. */
  lemma CleanTitleEmptyName()
    ensures CleanTitle("") == FallbackTitle
  {
    assert TitleWords("") == [];
  }

}

=== FILE: wrappers.dfy ===
/** The optional-value datatype used for lookups that may find nothing. */
module Wrappers {

  datatype Option<+T> = None | Some(value: T)
}
